=== FILE: README.md ===
# FFRMS raster QC, modelled in Dafny

The FFRMS raster QC tool checks the freeboard-value rasters of a flood study.
There are four tiers, `00FVA` to `03FVA`, each one foot above the previous.
The check runs on each adjacent tier pair. An optional `0_2PCT` raster for the
0.2 percent annual chance flood is checked against `00FVA`. The results go
into a CSV report.

Two versions are modelled:

- Version 1.5, `FFRMS_Raster_QC_Tool_V1.5.py`:
  - finds its rasters by scanning a folder listing;
  - derives its output names from the tier-0 raster's name;
  - runs its stages gated on an exception flag.
- Version 1.3, `FFRMS_Raster_QC_Riverin_V1.3.py`:
  - reads its rasters from a configuration sheet;
  - runs every stage in its own `try`.

The model is functional. A raster is a finite map from grid cells to values.
Its footprint is its set of cells. The GIS engine's operations become set and
map operations:

- `Erase` is set difference.
- `RasterCalculator` is a difference defined where both inputs have a value.
- `Reclassify` with `RemapRange` is a first-match search over value bands.
- A layer's feature count is abstracted as the number of cells it covers.
- Selecting the class-1 polygons and copying them is modelled as keeping exactly those polygons.

Modules:

- `Wrappers`: `Option` and `Result`.
- `Text`:
  - Python slicing with negative bounds, and `in` on strings;
  - `str(n)`;
  - `re.split('_|\.', s)` with its inverse.
- `Resolver`: version 1.5's folder scan and its go / no-go decision.
- `FileNames`: `parse_filename`, `os.path.splitext` and `get_unique_filename`.
- `Rasters`: footprints, `Erase`, the calculator's difference, tiers and tier pairs.
- `Remap`: `Reclassify` with `RemapRange`, for either convention on which
  of two adjacent ranges owns the endpoint they share.
- `Status`: the status strings and the digits read back from point-file names.
- `Artifacts`: the names and paths of the layers written.
- `Extent`: `compareExtent` and `compareExtent02`.
- `CellValue`: the chain from `compareCellvalue(02)` through
  `convertToshp(02)` and `extractCellValue(02)` to `reportCellComp`.
- `Report`: `generate_csv` and `generate_csv_wo02`, including Python's `zip`.
- `Pipeline`: both versions' control flow, and the end-to-end link from the
  rasters to the report's cells.

The source does not show which of two adjacent ranges the engine gives the
endpoint they share (0.95 and 1.05 in the FVA remap, 0 in the sign remap).
That choice is a parameter, `Ownership`, and every property is proved for
both choices. The outer ends of a remap (-1 and 10, or -10 and 10) belong to
their range under either choice.

## Model

| member | source | states |
|---|---|---|
| Text.SliceOfTail | FFRMS_Raster_QC_Tool_V1.5.py:370-371 | A slice whose two bounds are both negative reads only the string's tail, whatever precedes it |
| Text.SliceFromEnd | FFRMS_Raster_QC_Tool_V1.5.py:68 | `s[-k:]` keeps the last k characters, or the whole string when it is shorter |
| Text.ContainsIff | FFRMS_Raster_QC_Tool_V1.5.py:641 | The string-containment test used for tokens holds exactly when the token occurs at some position |
| Text.DecimalRoundTrip | FFRMS_Raster_QC_Tool_V1.5.py:589 | Reading back the decimal numeral of the retry index gives the index |
| Text.NatToStringInjective | FFRMS_Raster_QC_Tool_V1.5.py:589 | Different retry indices give different numerals |
| Text.Split | FFRMS_Raster_QC_Tool_V1.5.py:63 | `re.split` on `_` and `.` yields one more piece than there are separators, none containing a separator |
| Text.SplitThenJoin | FFRMS_Raster_QC_Tool_V1.5.py:63 | Splitting loses nothing: the pieces and separators rebuild the name |
| Text.JoinThenSplit | FFRMS_Raster_QC_Tool_V1.5.py:63 | Splitting separator-free pieces joined by separators gives back the pieces |
| Resolver.ScanSpec | FFRMS_Raster_QC_Tool_V1.5.py:629-647 | The scan's flag stays set exactly when no token is matched by two `.tif` names. While set, each key holds the first matching `.tif` name, and only matched keys are bound |
| Resolver.StepTif | FFRMS_Raster_QC_Tool_V1.5.py:638-647 | One more `.tif` name preserves that characterisation of the scan state |
| Resolver.StepNonTif | FFRMS_Raster_QC_Tool_V1.5.py:632 | A name not ending in `.tif` changes neither the state nor the characterisation |
| Resolver.ScanFlagMonotone | FFRMS_Raster_QC_Tool_V1.5.py:638-647 | Once `execution_allowed` is false, no later name sets it back |
| Resolver.ScanBindsHits | FFRMS_Raster_QC_Tool_V1.5.py:632-643 | Every bound name is a `.tif` name of the listing containing its key's token |
| Resolver.VisitSpec | FFRMS_Raster_QC_Tool_V1.5.py:640-647 | From an allowed state, one file keeps the flag exactly when none of its tokens is bound. It then binds exactly the tokens it contains |
| Resolver.ResolveGoNoGo | FFRMS_Raster_QC_Tool_V1.5.py:649-659 | The run goes on exactly when no token is matched twice and all four tiers are matched. A duplicate always stops it as a duplicate |
| Resolver.ResolveBindings | FFRMS_Raster_QC_Tool_V1.5.py:650-655 | Once the run goes on, a slot is filled exactly when some `.tif` name matches it, and then with the first such name |
| Resolver.NonTifNeverBound | FFRMS_Raster_QC_Tool_V1.5.py:632-643 | A bound raster is a listed `.tif` name containing its token |
| FileNames.ParseFilename | FFRMS_Raster_QC_Tool_V1.5.py:59-71 | Parsing succeeds exactly when the name has at least four separators. The prefix and frequency contain no separator, and the study type has at most three characters |
| FileNames.ParsedPrefixStartsName | FFRMS_Raster_QC_Tool_V1.5.py:63-67 | The prefix is the run of characters before the first `_` or `.` |
| FileNames.ParseAssembledName | FFRMS_Raster_QC_Tool_V1.5.py:59-71 | Round trip: a name assembled from five or more separator-free pieces parses back to its first piece, the last three characters of its third-from-last piece, and its fourth piece |
| FileNames.ParseRejectsShortNames | FFRMS_Raster_QC_Tool_V1.5.py:64-65 | Fewer than four separators raises the invalid-names error |
| FileNames.ParseTypicalName | FFRMS_Raster_QC_Tool_V1.5.py:59-71 | For `<prefix>_<a>_<study>_00FVA.tif`, the parsed values are the prefix, the study's last three characters, and `00FVA` |
| FileNames.SplitExt | FFRMS_Raster_QC_Tool_V1.5.py:586 | Base plus extension is the name. The extension is non-empty exactly when some `.` has a non-dot before it, and it starts at the last `.` |
| FileNames.CandidateInjective | FFRMS_Raster_QC_Tool_V1.5.py:589 | Different attempt indices try different names |
| FileNames.TriedSize | FFRMS_Raster_QC_Tool_V1.5.py:587-593 | The first n attempts are n distinct names |
| FileNames.UniqueFilename | FFRMS_Raster_QC_Tool_V1.5.py:585-593 | The result is never an existing name. It is the name itself when that is free, and otherwise `base_k.ext` for the least k >= 1 not present |
| Rasters.Erase | FFRMS_Raster_QC_Tool_V1.5.py:118 | The erased region is exactly the first region's cells outside the second: it lies in the first, misses the second, and keeps every cell of the first that the second lacks |
| Rasters.Minus | FFRMS_Raster_QC_Tool_V1.5.py:273 | The calculator's `y-x` is defined on the common cells, and adding x there gives y |
| Rasters.FvaPairsAreAdjacent | FFRMS_Raster_QC_Tool_V1.5.py:81-215 | The compared pairs are exactly the adjacent tiers, lowest first |
| Remap.Reclassify | FFRMS_Raster_QC_Tool_V1.5.py:283 | A value gets no code exactly when no range contains it. Otherwise it gets the code of a range that contains it |
| Remap.AscendingUniqueMatch | FFRMS_Raster_QC_Tool_V1.5.py:283 | With ascending, non-overlapping ranges, the range containing a value decides its code |
| Remap.FvaRemap | FFRMS_Raster_QC_Tool_V1.5.py:283-293 | A difference passes exactly when it lies between 0.95 and 1.05. It is flagged exactly when it lies in [-1, 10] outside that band. It is unclassified exactly when it lies below -1 or above 10. Only 0.95 and 1.05 follow the convention |
| Remap.SignRemap | FFRMS_Raster_QC_Tool_V1.5.py:311 | A difference is flagged exactly when it lies in [-10, 0). It passes exactly when it lies in (0, 10]. It is unclassified exactly when it lies below -10 or above 10. Only 0 follows the convention |
| Remap.EqualCellsAreFlagged | FFRMS_Raster_QC_Tool_V1.5.py:283 | Equal values in adjacent tiers are flagged under either endpoint convention |
| Remap.FvaOwnershipOnlyAtEndpoints | FFRMS_Raster_QC_Tool_V1.5.py:283 | Away from 0.95 and 1.05, the endpoint convention does not change the FVA code |
| Remap.SignOwnershipOnlyAtEndpoints | FFRMS_Raster_QC_Tool_V1.5.py:311 | Away from 0, the endpoint convention does not change the sign code |
| Remap.FvaEndpointsDependOnOwnership | FFRMS_Raster_QC_Tool_V1.5.py:283 | At 0.95 and at 1.05 the two conventions really give different codes. The outer ends -1 and 10 are flagged under both |
| Status.StatusOf | FFRMS_Raster_QC_Tool_V1.5.py:130-139 | The status is `Pass` exactly when the evidence layer is empty. Otherwise it names the evidence path |
| Status.EvidenceRoundTrip | FFRMS_Raster_QC_Tool_V1.5.py:134 | The evidence path can be read back from any failure status |
| Status.ReportCellComp15 | FFRMS_Raster_QC_Tool_V1.5.py:429-458 | Version 1.5's cell status is `Pass` exactly for an empty point layer. Otherwise it is a warning that names no evidence path |
| Status.ReportCellComp13 | FFRMS_Raster_QC_Riverin_V1.3.py:401-417 | Version 1.3's cell status is `Pass` exactly for an empty point layer. Otherwise it is the failure status of the point layer |
| Artifacts.PointsNameOfPair | FFRMS_Raster_QC_Tool_V1.5.py:370 | For any folder, `cellDiff{h}_{l}.shp` gives the point file `cellDiff{h}_{l}_pts.shp` |
| Artifacts.PointsNameOfAux | FFRMS_Raster_QC_Tool_V1.5.py:406 | `cellDiff0_02.shp` gives `cellDiff_02_pts.shp`: the leading `0` is dropped |
| Artifacts.TierDigitsRoundTrip | FFRMS_Raster_QC_Tool_V1.5.py:437-440 | Reading the digits back from a pair's point-file path gives the same digits, in order, for any folder |
| Artifacts.AuxHasNoTierDigits | FFRMS_Raster_QC_Tool_V1.5.py:437-444 | The 0.2 percent point file takes the no-digits branch |
| Artifacts.CellStatusNamesPair | FFRMS_Raster_QC_Tool_V1.5.py:370-440 | Name construction and re-parsing agree: a flagged pair's warning names its higher and lower digits |
| Artifacts.CellStatusNamesAux | FFRMS_Raster_QC_Tool_V1.5.py:406-444 | A flagged 0.2 percent pair gets the fixed 0.2 percent warning |
| Extent.ComparePair | FFRMS_Raster_QC_Tool_V1.5.py:100-139 | The evidence is the first footprint minus the second, and the reverse difference is the other way round. The status passes exactly when the first footprint lies within the second |
| Extent.StatusIgnoresReverse | FFRMS_Raster_QC_Tool_V1.5.py:100-139 | The status depends only on the evidence difference, never on the reverse one |
| Extent.CompareExtent | FFRMS_Raster_QC_Tool_V1.5.py:81-215 | Pair i passes exactly when the lower tier's footprint lies in the higher one's. Otherwise its status names that pair's `diffFva` layer |
| Extent.CompareExtentAux | FFRMS_Raster_QC_Tool_V1.5.py:217-267 | The 0.2 percent pair passes exactly when FVA0's footprint lies in the 0.2 percent raster's. Otherwise its status names `diffFva0_02.shp` |
| Extent.EvidenceNames | FFRMS_Raster_QC_Tool_V1.5.py:118-248 | The evidence layers are `diffFva0_1`, `diffFva1_2`, `diffFva2_3` and `diffFva0_02` in the evidence folder |
| Extent.PassingExtentsNest | FFRMS_Raster_QC_Tool_V1.5.py:81-215 | When all three pairs pass, the footprints nest from FVA0 up to FVA3 |
| CellValue.Violations | FFRMS_Raster_QC_Tool_V1.5.py:269-302 | A cell is flagged exactly when both inputs hold a value there and the remap gives their difference code 1 |
| CellValue.PointsOf | FFRMS_Raster_QC_Tool_V1.5.py:357-391 | There is one point per exported cell, carrying both input values and higher minus lower |
| CellValue.CompareCells | FFRMS_Raster_QC_Tool_V1.5.py:269-458 | Only code-1 cells on the common footprint are exported, each as a point with `ValueDiff` = higher minus lower. The status passes exactly when none is exported |
| CellValue.FvaCellViolations | FFRMS_Raster_QC_Tool_V1.5.py:269-302 | A tier pair flags a cell exactly when both tiers hold it and the higher minus the lower lies in a violation band |
| CellValue.FvaCellVerdict | FFRMS_Raster_QC_Tool_V1.5.py:269-458 | A tier pair's cell status passes exactly when no common cell violates the one-foot step |
| CellValue.FvaPointsOutsidePassBand | FFRMS_Raster_QC_Tool_V1.5.py:357-391 | Every exported point lies on both tiers. Its `ValueDiff` is the higher minus the lower, between -1 and 10, and outside (0.95, 1.05) |
| CellValue.IdenticalTiersFail | FFRMS_Raster_QC_Tool_V1.5.py:269-302 | Two tiers with equal values on a common cell never pass |
| CellValue.AuxCellViolations15 | FFRMS_Raster_QC_Tool_V1.5.py:304-316 | Version 1.5 flags a cell exactly when the 0.2 percent value lies below FVA0 by at most ten feet |
| CellValue.AuxCellVerdict15 | FFRMS_Raster_QC_Tool_V1.5.py:304-458 | Version 1.5's 0.2 percent cell status passes exactly when no cell is flagged that way |
| CellValue.AuxPointBounds15 | FFRMS_Raster_QC_Tool_V1.5.py:393-427 | A 0.2 percent point lies on both rasters. Its `ValueDiff`, FVA0 minus 0.2 percent, is in [0, 10] (positive when ranges own their lower end) |
| CellValue.AuxCellViolations13 | FFRMS_Raster_QC_Riverin_V1.3.py:276-289 | Version 1.3 applies the one-foot-step test to FVA0 minus the 0.2 percent raster |
| CellValue.AuxCellVerdict13 | FFRMS_Raster_QC_Riverin_V1.3.py:276-289 | Version 1.3's 0.2 percent cell status passes exactly when no cell fails the one-foot-step test that way |
| CellValue.AuxVersionsDisagree | FFRMS_Raster_QC_Riverin_V1.3.py:280-283 | The versions differ on the 0.2 percent pair: FVA0 one foot above it is flagged by 1.5 and passed by 1.3 |
| CellValue.FvaCellStatus | FFRMS_Raster_QC_Riverin_V1.3.py:401-417 | A flagged pair's status names the pair: 1.5's warning with the higher and lower digits, or 1.3's failure status of `cellDiff{h}_{l}_pts.shp` |
| CellValue.AuxCellStatus15 | FFRMS_Raster_QC_Tool_V1.5.py:443-445 | A flagged 0.2 percent pair gets version 1.5's fixed warning |
| Report.Zip | FFRMS_Raster_QC_Tool_V1.5.py:529 | `zip` gives as many rows as the shortest column, and row k holds the k-th entry of every column |
| Report.MinLenTails | FFRMS_Raster_QC_Tool_V1.5.py:529 | Dropping the first entry of every column shortens the shortest by one |
| Report.PropertyColumns | FFRMS_Raster_QC_Tool_V1.5.py:899-906 | Each property list keeps its entries and gains five fields. The tier pairs get their label, two statuses and `TBD`, FVA3 gets empty fields, and the 0.2 percent list gets its label, statuses and an empty field. Every appended block starts with an empty field, and all of FVA3's appended fields are empty |
| Report.ReportLayout | FFRMS_Raster_QC_Tool_V1.5.py:487-534 | The rows number the shortest of header, QC codes and extended lists. Row k holds the k-th header, the k-th code and the k-th field of each list |
| Report.Report13Rows | FFRMS_Raster_QC_Riverin_V1.3.py:444-540 | Version 1.3 writes ten rows pairing each header with its code. The extent, cell and `TBD` rows carry the statuses |
| Report.Report15AsWrittenRows | FFRMS_Raster_QC_Tool_V1.5.py:493-529 | Version 1.5 as written writes only ten rows, so each eleven-field list loses its `TBD` |
| Report.Wo02ListIsTheSame | FFRMS_Raster_QC_Tool_V1.5.py:555-566 | The list without the 0.2 percent raster, whose missing comma joins `'R8' ''`, is the same ten codes |
| Report.Lists15AgainstLists13 | FFRMS_Raster_QC_Tool_V1.5.py:493-516 | Version 1.5's header inserts `Vertical_Unit` into 1.3's. The intended codes insert R8 there, but the codes as written also drop an empty code |
| Report.Report15AsWrittenMisaligned | FFRMS_Raster_QC_Tool_V1.5.py:506-529 | As written, the extent row is coded R14 and the cell row R17, where 1.3 gives the same headers R11 and R14 |
| Report.Report15Rows | FFRMS_Raster_QC_Tool_V1.5.py:493-529 | With the intended codes there are eleven rows. Each header gets 1.3's code for it, and the extent, cell and `TBD` rows carry the statuses |
| Report.Report15StatusCells | FFRMS_Raster_QC_Tool_V1.5.py:899-910 | Pair i's column holds its extent status, cell status and `TBD` in rows 8, 9 and 10 |
| Report.Report15PctColumn | FFRMS_Raster_QC_Tool_V1.5.py:902-910 | The 0.2 percent column holds its label and its two statuses |
| Pipeline.Gate | FFRMS_Raster_QC_Tool_V1.5.py:714-931 | There is one outcome per gated stage |
| Pipeline.GateAt | FFRMS_Raster_QC_Tool_V1.5.py:714-931 | A stage is skipped exactly when the flag was set or an earlier stage raised. It fails exactly when it raises and nothing before it did |
| Pipeline.FlagNeverCleared | FFRMS_Raster_QC_Tool_V1.5.py:613-931 | Once a stage has failed or been skipped, every later stage is skipped |
| Pipeline.AtMostOneFailure | FFRMS_Raster_QC_Tool_V1.5.py:714-931 | At most one stage of a version 1.5 run fails |
| Pipeline.Control15 | FFRMS_Raster_QC_Tool_V1.5.py:650-936 | The stages run exactly when the listing resolves and the tier-0 name parses. The extension is then checked in |
| Pipeline.Report15Written | FFRMS_Raster_QC_Tool_V1.5.py:650-931 | The CSV stage completes exactly when the listing resolves, the name parses and no exception escapes a stage. A duplicate token halts the run before any stage |
| Pipeline.Control13 | FFRMS_Raster_QC_Riverin_V1.3.py:551-721 | The extension is always checked in. With the configuration read, no stage is skipped; without it, every stage is |
| Pipeline.Report13Written | FFRMS_Raster_QC_Riverin_V1.3.py:583-709 | Version 1.3's CSV stage completes exactly when the configuration is read and no exception escapes a stage |
| Pipeline.Properties13AfterExtentFailure | FFRMS_Raster_QC_Riverin_V1.3.py:583-681 | In 1.3 a failed extent compare does not stop the property stage |
| Pipeline.Properties15AfterExtentFailure | FFRMS_Raster_QC_Tool_V1.5.py:714-931 | In 1.5 a failed extent compare skips every later stage |
| Pipeline.RunStatuses | FFRMS_Raster_QC_Tool_V1.5.py:714-850 | Pair i's extent status passes exactly when the lower tier's footprint lies in the higher one's. Its cell status passes exactly when its cells agree. The 0.2 percent statuses exist exactly when that raster does, and pass under the same conditions for that pair |
| Pipeline.CellStatuses | FFRMS_Raster_QC_Tool_V1.5.py:819-835 | Cell status i passes exactly when pair i's cells agree under the one-foot-step test |
| Pipeline.AuxStatuses | FFRMS_Raster_QC_Tool_V1.5.py:724-834 | The 0.2 percent statuses exist exactly when that raster does. Its extent status passes exactly when FVA0's footprint lies in the 0.2 percent raster's. Its cell status passes exactly when no cell is flagged under the version's rule |
| Pipeline.Report15Verdicts | FFRMS_Raster_QC_Tool_V1.5.py:890-912 | End to end, with the intended codes: pair i's report cells say `Pass` exactly when the footprints nest and exactly when its cells agree |
| Pipeline.Report15PctVerdicts | FFRMS_Raster_QC_Tool_V1.5.py:890-912 | End to end, with the intended codes: the 0.2 percent column's cells say `Pass` exactly when the footprints nest and exactly when no cell is below FVA0 |
| Pipeline.Report15AsWrittenVerdicts | FFRMS_Raster_QC_Tool_V1.5.py:890-912 | End to end, as written: the report has ten rows. Rows R14 and R17 carry pair i's cells, which say `Pass` exactly when the footprints nest and exactly when its cells agree |
| Pipeline.Report15AsWrittenPctVerdicts | FFRMS_Raster_QC_Tool_V1.5.py:890-912 | End to end, as written: the report has ten rows, and the 0.2 percent column's cells say `Pass` exactly when the footprints nest and exactly when no cell is below FVA0 |
| Report.Report15AsWrittenStatusCells | FFRMS_Raster_QC_Tool_V1.5.py:506-529 | As written, pair i's extent and cell statuses land in rows 8 and 9, coded R14 and R17 |
| Report.Report15AsWrittenPctColumn | FFRMS_Raster_QC_Tool_V1.5.py:506-529 | As written, the 0.2 percent column holds its label and its two statuses |

## Left out

- Engine calls beyond what the comparisons compute are left out: `RasterToPolygon`, `MultipartToSinglepart`, `AddField`, `CalculateField`, `CreateFeatureclass`, `MakeFeatureLayer`, `CopyFeatures` and `Dissolve`. A layer is its set of cells. A polygon layer's feature count is abstracted as its number of cells, because the source only tests whether the count is positive.
- `SelectLayerByAttribute(templayer, "NEW_SELECTION", '"gridcode" = 1')` followed by `CopyFeatures` (lines 361-364 and 397-400 of version 1.5, lines 333-336 and 369-372 of version 1.3) is modelled as copying exactly the class-1 polygons, including when there are none, so that the copy is empty. The source does not settle the case where nothing matches. If the engine treated an empty selection as no selection, the copy would hold the class-0 polygons, and the status would be the reverse when every cell passes. Every "cell status passes exactly when no cell is flagged" statement (`CellValue.CompareCells`, `FvaCellVerdict`, `AuxCellVerdict15`, `AuxCellVerdict13`, `Pipeline.CellStatuses`) rests on this reading.
- The `Area` field of the extent layers is left out, because no decision reads it.
- `FeatureToPoint` is modelled as one point per flagged cell. `ExtractMultiValuesToPoints` is modelled as sampling both inputs at that cell.
- `getRasterProperties` is not modelled. Its lists are an input (`meta`), and only their lengths matter: six entries in version 1.5 and five in version 1.3.
- `check_extention` and `retrieveConfig` are left out, as are reading the Excel configuration, logging, `print`, timing, folder creation and `os.listdir`. The listing and `os.path.exists` become inputs: the sequence of names, and the set of existing names.
- `find_variable_part` and `printError` are not part of this model, because nothing in the checks uses them. `HUC12s-per-county.py` is a separate script and is not part of this model either.
- Whether an exception escapes a stage to the main `try` is an input (`faults`), decided per stage rather than per call. Every helper catches its own errors with a bare `except`, prints, and still reaches its `return`. So an engine call that fails inside a helper is usually swallowed: the stage completes, and it fails only when its `return` reads a name the failed call left unbound. The model does not derive which engine failures escape. For example, `reclas3.save` raising at line 294 of version 1.5 leaves all three results bound, so the stage completes.
- Report15Written: "the CSV stage completes" does not mean the file holds every row. A `csv_writer.writerow` failure is caught inside `generate_csv` (lines 523-534 of version 1.5). The stage still completes and logs success, but the report may be incomplete. The model does not track how far the write got.
- Report13Written: the same holds for version 1.3, whose `generate_csv` also catches its own write errors.
- The raised exception's type and the `NameError` of a later stage reading an unbound name are not modelled. In version 1.3 a stage that reads a result a failed stage never bound is modelled as failing too.
- Path joining is `folder + "\" + name`, following Windows. `os.path.basename` is not modelled, so listing names are bare names. `get_unique_filename` is modelled over bare names; the folder is left out.
- Floating-point arithmetic is modelled with exact `real`s. The calculator's `FirstOf`/`UnionOf` extent rule is modelled as the difference being defined only where both inputs hold a value.
- The three tier pairs are unrolled by hand in the source. The model computes them from one list, `Rasters.FvaPairs`, and proves that the resulting names and statuses are the source's literals.
- The auxiliary extent check follows the code. The warning at line 262 of version 1.5 describes the 0.2 percent raster's footprint reaching beyond FVA0's. The code's evidence layer is the other direction: FVA0 minus the 0.2 percent raster (`Erase(polyFva0, polyFva02)`). `Extent.CompareExtentAux` models the code.
- Which of two adjacent `RemapRange` ranges owns the endpoint they share is the engine's choice and is not in the source. It is the parameter `Ownership`, and every property holds for both choices.
- FvaRemap: the outer ends -1 and 10 are taken to belong to their range under either convention, following the usual reading of `RemapRange`. The source does not settle this.
- SignRemap: the outer ends -10 and 10 are taken to belong to their range under either convention, for the same reason as in the FVA remap.
- PointsOf: `ValueDiff` is named from the first match of `\d+FVA` (or `\d+PCT`) in each input's full path. The model assumes that match is the raster's own tier token, so the two field names differ. A folder name such as `2FVA_runs` would give both fields the same name. A path with no match (possible in version 1.3, whose paths come from the configuration) raises `AttributeError`, which the stage's `except` swallows, and `ValueDiff` is never set. Neither case is modelled.
- Report15Verdicts: stated of the report with the intended eleven QC codes. The report the code writes is covered by `Report15AsWrittenVerdicts`.
- Report15PctVerdicts: stated of the report with the intended eleven QC codes. The report the code writes is covered by `Report15AsWrittenPctVerdicts`.

## Findings

| source | as written | input that shows it | evidently intended | confidence | as-written member | corrected member |
|---|---|---|---|---|---|---|
| FFRMS_Raster_QC_Tool_V1.5.py:506-529 | `qclist` has 10 entries against an 11-entry `csvheader`. The `generate_csv_wo02` copy, at lines 555-566, reaches the same count through a missing comma (`'R8' ''`). `zip` therefore writes 10 rows and pairs the headers with the wrong QC codes from the eighth row on | Any run that writes the report: the extent-compare row is labelled R14 and the cell-value row R17, and the `TBD` row is dropped | Version 1.3's codes with R8 inserted for `Vertical_Unit`: 11 codes, so the extent row is R11, the cell row R14 and the `TBD` row R17 | not executed | Report.Report15AsWrittenMisaligned | Report.Report15Rows |

=== FILE: artifacts.dfy ===
/** Names and paths of the layers the checks write, and the round trip between
    the point-file name built from a polygon path and the tier digits
    version 1.5's `reportCellComp` reads back from it. */
module Artifacts {
  import opened Wrappers
  import opened Text
  import opened Rasters
  import opened Status

  /** The two tool versions, where they differ. */
  datatype Version = V13 | V15

  /** `os.path.join` of a Windows folder and a bare file name. */
  function Join(folder: String, name: String): String
  {
    folder + "\\" + name
  }

  /** Where a run writes: scratch layers go to `temp`; evidence layers go to
      `evidence`, which is `shapefilesFolder` in version 1.5 and
      `outputFolder` in version 1.3. */
  datatype Folders = Folders(temp: String, evidence: String)

  /** The one-character label of a tier in layer names. */
  function TierLabel(t: Tier): String
  {
    [t.Digit()]
  }

  /** The label of the 0.2 percent raster in layer names. */
  const PctLabel: String := "02"

  /** `diffFva{a}_{b}.shp`: the footprint of a minus the footprint of b. */
  function DiffName(a: String, b: String): String
  {
    "diffFva" + a + "_" + b + ".shp"
  }

  /** `cellDiff{a}_{b}.shp`: the polygons of a reclassified difference raster. */
  function CellDiffName(a: String, b: String): String
  {
    "cellDiff" + a + "_" + b + ".shp"
  }

  /** `cellDiff{str(poly)[-7:-4]}_pts.shp`: the point layer of a polygon layer,
      named after the three characters before its `.shp`. */
  function PointsName(polyPath: String): String
  {
    "cellDiff" + Slice(polyPath, -7, -4) + "_pts.shp"
  }

  /** Only the last seven characters of the polygon path matter, so the folder
      it lies in does not: `cellDiff{h}_{l}.shp` gives `cellDiff{h}_{l}_pts.shp`. */
  lemma PointsNameOfPair(folder: String, h: char, l: char)
    ensures PointsName(Join(folder, CellDiffName([h], [l]))) == "cellDiff" + [h] + "_" + [l] + "_pts.shp"
  {
    var t := [h] + "_" + [l] + ".shp";
    var p := folder + "\\" + "cellDiff";
    assert Join(folder, CellDiffName([h], [l])) == p + t;
    SliceOfTail(p, t, 0, 3);
    assert t[0..3] == [h] + "_" + [l];
  }

  /** The 0.2 percent polygon layer `cellDiff0_02.shp` gives `cellDiff_02_pts.shp`:
      its leading `0` falls outside the three characters kept. */
  lemma PointsNameOfAux(folder: String)
    ensures PointsName(Join(folder, CellDiffName("0", PctLabel))) == "cellDiff_02_pts.shp"
  {
    var t := "_02.shp";
    var p := folder + "\\" + "cellDiff0";
    assert Join(folder, CellDiffName("0", PctLabel)) == p + t;
    SliceOfTail(p, t, 0, 3);
  }

  /** Reading the digits back from a pair's point-file path gives the same
      digits, in the same order, whatever folder the file is in. */
  lemma TierDigitsRoundTrip(folder: String, h: char, l: char)
    ensures TierDigitsOf(Join(folder, "cellDiff" + [h] + "_" + [l] + "_pts.shp")) == Some(([h], [l]))
  {
    var t := [h] + "_" + [l] + "_pts.shp";
    var p := folder + "\\" + "cellDiff";
    assert Join(folder, "cellDiff" + [h] + "_" + [l] + "_pts.shp") == p + t;
    assert |t| == 11;
    SliceOfTail(p, t, 1, 2);
    SliceOfTail(p, t, 0, 1);
    SliceOfTail(p, t, 2, 3);
    assert t[1..2] == "_" && t[0..1] == [h] && t[2..3] == [l];
    assert Slice(p + t, -10, -9) == "_";
    assert Slice(p + t, -11, -10) == [h];
    assert Slice(p + t, -9, -8) == [l];
  }

  /** The 0.2 percent point file carries no digits at those positions. */
  lemma AuxHasNoTierDigits(folder: String)
    ensures TierDigitsOf(Join(folder, "cellDiff_02_pts.shp")) == None
  {
    var t := "_02_pts.shp";
    var p := folder + "\\" + "cellDiff";
    assert Join(folder, "cellDiff_02_pts.shp") == p + t;
    SliceOfTail(p, t, 1, 2);
    assert t[1..2] == "0";
  }

  /** The point file of a pair's polygon layer, in the evidence folder. */
  function PointsPath(f: Folders, polyName: String): String
  {
    Join(f.evidence, PointsName(Join(f.temp, polyName)))
  }

  /** Name construction and re-parsing agree: for the pair (h, l) with at
      least one point, version 1.5's status is the warning naming h and l. */
  lemma CellStatusNamesPair(f: Folders, h: char, l: char, count: nat)
    requires count > 0
    ensures ReportCellComp15(PointsPath(f, CellDiffName([h], [l])), count) == PairWarning([h], [l])
  {
    PointsNameOfPair(f.temp, h, l);
    TierDigitsRoundTrip(f.evidence, h, l);
  }

  /** For the 0.2 percent layer with at least one point it is the 0.2 percent warning. */
  lemma CellStatusNamesAux(f: Folders, count: nat)
    requires count > 0
    ensures ReportCellComp15(PointsPath(f, CellDiffName("0", PctLabel)), count) == AuxWarning
  {
    PointsNameOfAux(f.temp);
    AuxHasNoTierDigits(f.evidence);
  }
}

=== FILE: cellvalue.dfy ===
/** The cell-value checks: `compareCellvalue(02)` computes a difference
    raster and reclassifies it, `convertToshp(02)` and `extractCellValue(02)`
    turn the class-1 cells into a point layer carrying both raster values and
    their difference, and `reportCellComp` turns the point count into a status.
    One generic pair function covers the three tier pairs and the 0.2 percent
    pair of both versions. */
module CellValue {
  import opened Wrappers
  import opened Text
  import opened Rasters
  import opened Remap
  import opened Status
  import opened Artifacts

  /** The calculator expression over the inputs [x, y]: `"y-x"` or `"x-y"`. */
  datatype Expr = YMinusX | XMinusY

  /** The difference raster, defined on the cells where both inputs hold a value. */
  function Delta(x: Raster, y: Raster, e: Expr): map<Cell, real>
  {
    match e
    case YMinusX => Minus(x, y)
    case XMinusY => Minus(y, x)
  }

  /** The difference the expression computes from the first input's value x
      and the second input's value y. */
  function Difference(e: Expr, x: real, y: real): real
  {
    match e
    case YMinusX => y - x
    case XMinusY => x - y
  }

  /** Which remap a check uses. */
  datatype Rule = FvaRule | SignRule

  function Classify(rule: Rule, own: Ownership, d: real): CellClass
  {
    match rule
    case FvaRule => ClassifyFva(own, d)
    case SignRule => ClassifySign(own, d)
  }

  /** One exported point: the value sampled from the first input (`lower`),
      from the second input (`higher`), and `ValueDiff`. */
  datatype Point = Point(lower: real, higher: real, valueDiff: real)

  /** A check as the source calls it: the remap, the expression, the two
      inputs in the order given to both the calculator and the point
      extraction, and the name of the polygon layer. */
  datatype CellSpec = CellSpec(rule: Rule, expr: Expr, x: Raster, y: Raster, polyName: String)

  datatype CellOutcome = CellOutcome(violations: set<Cell>, points: map<Cell, Point>, pointsPath: String, status: String)

  /** The class-1 cells of the reclassified difference raster: the cells
      where both inputs hold a value and the remap sends their difference to 1. */
  function Violations(own: Ownership, s: CellSpec): (vs: set<Cell>)
    ensures forall c :: c in vs <==>
              c in s.x && c in s.y && IsViolation(Classify(s.rule, own, Difference(s.expr, s.x[c], s.y[c])))
  {
    var d := Delta(s.x, s.y, s.expr);
    assert forall c :: c in d ==> c in s.x && c in s.y && d[c] == Difference(s.expr, s.x[c], s.y[c]);
    set c | c in d && IsViolation(Classify(s.rule, own, d[c]))
  }

  /** One point per exported cell, carrying both input values and their difference. */
  function PointsOf(s: CellSpec, cells: set<Cell>): (pts: map<Cell, Point>)
    requires cells <= Footprint(s.x) * Footprint(s.y)
    ensures pts.Keys == cells
    ensures forall c :: c in pts ==>
              pts[c].lower == s.x[c] && pts[c].higher == s.y[c] && pts[c].valueDiff == pts[c].higher - pts[c].lower
  {
    map c | c in cells :: Point(s.x[c], s.y[c], s.y[c] - s.x[c])
  }

  /** One check. Only class-1 cells are exported; each becomes a point whose
      `ValueDiff` is the second input's value minus the first one's. The
      point layer exists (possibly empty) and the status is read off its
      feature count, which is positive exactly when some cell was exported. */
  function CompareCells(v: Version, own: Ownership, s: CellSpec, f: Folders): (r: CellOutcome)
    ensures r.violations <= Footprint(s.x) * Footprint(s.y)
    ensures forall c :: c in r.violations <==>
              c in s.x && c in s.y && IsViolation(Classify(s.rule, own, Difference(s.expr, s.x[c], s.y[c])))
    ensures r.points.Keys == r.violations
    ensures forall c :: c in r.points ==>
              r.points[c].lower == s.x[c] && r.points[c].higher == s.y[c]
              && r.points[c].valueDiff == r.points[c].higher - r.points[c].lower
    ensures r.pointsPath == PointsPath(f, s.polyName)
    ensures r.status == Pass <==> r.violations == {}
  {
    var violations := Violations(own, s);
    var points := PointsOf(s, violations);
    var path := PointsPath(f, s.polyName);
    var count := |points.Keys|;
    assert count == 0 <==> violations == {};
    var status := match v
                  case V15 => ReportCellComp15(path, count)
                  case V13 => ReportCellComp13(path, count);
    CellOutcome(violations, points, path, status)
  }

  // ---------------------------------------------------------------------
  // The instances of the tools

  /** A tier pair (lower, higher): `"y-x"` over [lower, higher] with the FVA
      remap, polygons `cellDiff{higher}_{lower}.shp`. */
  function FvaCellSpec(rs: RasterSet, p: (Tier, Tier)): CellSpec
  {
    CellSpec(FvaRule, YMinusX, TierRaster(rs, p.0), TierRaster(rs, p.1), CellDiffName(TierLabel(p.1), TierLabel(p.0)))
  }

  /** The 0.2 percent pair, with inputs [0.2 percent, FVA0] in both versions:
      version 1.5 computes `"x-y"` and applies the sign remap, version 1.3
      computes `"y-x"` and applies the FVA remap. */
  function AuxCellSpec(v: Version, fva0: Raster, pct: Raster): CellSpec
  {
    match v
    case V15 => CellSpec(SignRule, XMinusY, pct, fva0, CellDiffName("0", PctLabel))
    case V13 => CellSpec(FvaRule, YMinusX, pct, fva0, CellDiffName("0", PctLabel))
  }

  /** Cell c is a violation of the FVA remap for the pair (lo, hi): both
      rasters hold a value there and the higher minus the lower value lies
      in [-1, 10] but outside the pass band around one foot. */
  predicate FvaViolates(own: Ownership, lo: Raster, hi: Raster, c: Cell)
  {
    c in lo && c in hi && -1.0 <= hi[c] - lo[c] <= 10.0 && !Within(own, 0.95, 1.05, hi[c] - lo[c])
  }

  /** The cell-value verdict of a pair under the FVA remap: no cell violates it. */
  predicate FvaCellsAgree(own: Ownership, lo: Raster, hi: Raster)
  {
    forall c | c in lo :: !FvaViolates(own, lo, hi, c)
  }

  /** On a common cell, violating the FVA remap is being reclassified to 1. */
  lemma FvaViolatesIff(own: Ownership, lo: Raster, hi: Raster, c: Cell)
    requires c in lo && c in hi
    ensures FvaViolates(own, lo, hi, c) <==> IsViolation(Classify(FvaRule, own, Difference(YMinusX, lo[c], hi[c])))
  {
    FvaRemap(own, hi[c] - lo[c]);
  }

  /** A tier pair flags a cell exactly when the cell violates the FVA remap
      for the (lower, higher) rasters. */
  lemma FvaCellViolations(v: Version, own: Ownership, rs: RasterSet, p: (Tier, Tier), f: Folders, c: Cell)
    ensures c in CompareCells(v, own, FvaCellSpec(rs, p), f).violations
            <==> FvaViolates(own, TierRaster(rs, p.0), TierRaster(rs, p.1), c)
  {
    var s := FvaCellSpec(rs, p);
    var lo := TierRaster(rs, p.0);
    var hi := TierRaster(rs, p.1);
    assert s.rule == FvaRule && s.expr == YMinusX && s.x == lo && s.y == hi;
    var r := CompareCells(v, own, s, f);
    if c in lo && c in hi {
      FvaViolatesIff(own, lo, hi, c);
    }
  }

  /** The cell status of a tier pair passes exactly when the pair agrees. */
  lemma FvaCellVerdict(v: Version, own: Ownership, rs: RasterSet, p: (Tier, Tier), f: Folders)
    ensures CompareCells(v, own, FvaCellSpec(rs, p), f).status == Pass
            <==> FvaCellsAgree(own, TierRaster(rs, p.0), TierRaster(rs, p.1))
  {
    var r := CompareCells(v, own, FvaCellSpec(rs, p), f);
    var lo := TierRaster(rs, p.0);
    var hi := TierRaster(rs, p.1);
    if FvaCellsAgree(own, lo, hi) {
      forall c | c in r.violations
        ensures false
      {
        FvaCellViolations(v, own, rs, p, f, c);
      }
      assert r.violations == {};
    } else {
      var c :| FvaViolates(own, lo, hi, c);
      FvaCellViolations(v, own, rs, p, f, c);
      assert c in r.violations;
    }
  }

  /** Every exported point of a tier pair carries the higher minus the lower
      value as `ValueDiff`, which lies in [-1, 10] and outside the open pass
      band (0.95, 1.05), under either ownership. */
  lemma FvaPointsOutsidePassBand(v: Version, own: Ownership, rs: RasterSet, p: (Tier, Tier), f: Folders, c: Cell)
    requires c in CompareCells(v, own, FvaCellSpec(rs, p), f).points
    ensures c in TierRaster(rs, p.0) && c in TierRaster(rs, p.1)
    ensures var vd := CompareCells(v, own, FvaCellSpec(rs, p), f).points[c].valueDiff;
            vd == TierRaster(rs, p.1)[c] - TierRaster(rs, p.0)[c] && -1.0 <= vd <= 10.0 && !(0.95 < vd < 1.05)
  {
    FvaCellViolations(v, own, rs, p, f, c);
  }

  /** Two tiers with the same values on a common non-empty footprint never
      pass: a zero difference is always a violation. */
  lemma IdenticalTiersFail(v: Version, own: Ownership, rs: RasterSet, p: (Tier, Tier), f: Folders, c: Cell)
    requires c in TierRaster(rs, p.0) && c in TierRaster(rs, p.1)
    requires TierRaster(rs, p.0)[c] == TierRaster(rs, p.1)[c]
    ensures CompareCells(v, own, FvaCellSpec(rs, p), f).status != Pass
  {
    FvaCellViolations(v, own, rs, p, f, c);
    FvaRemap(own, 0.0);
  }

  /** Cell c is a violation of version 1.5's 0.2 percent check: both rasters
      hold a value there and the 0.2 percent value lies below FVA0 by at most
      ten feet. */
  predicate PctViolates15(own: Ownership, fva0: Raster, pct: Raster, c: Cell)
  {
    c in fva0 && c in pct && -10.0 <= pct[c] - fva0[c] && BelowCut(own, 0.0, pct[c] - fva0[c])
  }

  /** The cell-value verdict of version 1.5's 0.2 percent pair: no cell violates it. */
  predicate PctCellsAgree15(own: Ownership, fva0: Raster, pct: Raster)
  {
    forall c | c in fva0 :: !PctViolates15(own, fva0, pct, c)
  }

  /** On a common cell, violating the 0.2 percent check is being reclassified
      to 1 by the sign remap. */
  lemma PctViolatesIff15(own: Ownership, fva0: Raster, pct: Raster, c: Cell)
    requires c in fva0 && c in pct
    ensures PctViolates15(own, fva0, pct, c) <==> IsViolation(Classify(SignRule, own, Difference(XMinusY, pct[c], fva0[c])))
  {
    SignRemap(own, pct[c] - fva0[c]);
  }

  /** Version 1.5's 0.2 percent check flags exactly the cells that violate it. */
  lemma AuxCellViolations15(own: Ownership, fva0: Raster, pct: Raster, f: Folders, c: Cell)
    ensures c in CompareCells(V15, own, AuxCellSpec(V15, fva0, pct), f).violations
            <==> PctViolates15(own, fva0, pct, c)
  {
    var s := AuxCellSpec(V15, fva0, pct);
    assert s.rule == SignRule && s.expr == XMinusY && s.x == pct && s.y == fva0;
    var r := CompareCells(V15, own, s, f);
    if c in fva0 && c in pct {
      PctViolatesIff15(own, fva0, pct, c);
    }
  }

  /** Version 1.5's 0.2 percent cell status passes exactly when the pair agrees. */
  lemma AuxCellVerdict15(own: Ownership, fva0: Raster, pct: Raster, f: Folders)
    ensures CompareCells(V15, own, AuxCellSpec(V15, fva0, pct), f).status == Pass
            <==> PctCellsAgree15(own, fva0, pct)
  {
    var r := CompareCells(V15, own, AuxCellSpec(V15, fva0, pct), f);
    if PctCellsAgree15(own, fva0, pct) {
      forall c | c in r.violations
        ensures false
      {
        AuxCellViolations15(own, fva0, pct, f, c);
      }
      assert r.violations == {};
    } else {
      var c :| PctViolates15(own, fva0, pct, c);
      AuxCellViolations15(own, fva0, pct, f, c);
      assert c in r.violations;
    }
  }

  /** A point of version 1.5's 0.2 percent check has `ValueDiff` FVA0 minus
      the 0.2 percent value, which lies in [0, 10] and is positive when
      ranges own their lower end. */
  lemma AuxPointBounds15(own: Ownership, fva0: Raster, pct: Raster, f: Folders, c: Cell)
    requires c in CompareCells(V15, own, AuxCellSpec(V15, fva0, pct), f).points
    ensures c in fva0 && c in pct
    ensures var vd := CompareCells(V15, own, AuxCellSpec(V15, fva0, pct), f).points[c].valueDiff;
            vd == fva0[c] - pct[c] && 0.0 <= vd <= 10.0 && (own == LowerInclusive ==> vd > 0.0)
  {
    AuxCellViolations15(own, fva0, pct, f, c);
  }

  /** Version 1.3's 0.2 percent check is the FVA remap applied to the pair
      (0.2 percent, FVA0): it flags a cell exactly when FVA0 minus the 0.2
      percent value falls in a violation range of that remap. */
  lemma AuxCellViolations13(own: Ownership, fva0: Raster, pct: Raster, f: Folders, c: Cell)
    ensures c in CompareCells(V13, own, AuxCellSpec(V13, fva0, pct), f).violations
            <==> FvaViolates(own, pct, fva0, c)
  {
    var s := AuxCellSpec(V13, fva0, pct);
    assert s.rule == FvaRule && s.expr == YMinusX && s.x == pct && s.y == fva0;
    var r := CompareCells(V13, own, s, f);
    if c in fva0 && c in pct {
      FvaViolatesIff(own, pct, fva0, c);
    }
  }

  /** Version 1.3's 0.2 percent cell status passes exactly when the pair
      (0.2 percent, FVA0) agrees under the FVA remap. */
  lemma AuxCellVerdict13(own: Ownership, fva0: Raster, pct: Raster, f: Folders)
    ensures CompareCells(V13, own, AuxCellSpec(V13, fva0, pct), f).status == Pass
            <==> FvaCellsAgree(own, pct, fva0)
  {
    var r := CompareCells(V13, own, AuxCellSpec(V13, fva0, pct), f);
    if FvaCellsAgree(own, pct, fva0) {
      forall c | c in r.violations
        ensures false
      {
        AuxCellViolations13(own, fva0, pct, f, c);
      }
      assert r.violations == {};
    } else {
      var c :| FvaViolates(own, pct, fva0, c);
      AuxCellViolations13(own, fva0, pct, f, c);
      assert c in r.violations;
    }
  }

  /** The two versions disagree on the 0.2 percent pair: with FVA0 one foot
      above the 0.2 percent raster on a single cell, version 1.5 flags the
      cell and version 1.3 passes it. */
  lemma AuxVersionsDisagree(own: Ownership, f: Folders)
    ensures var c := Cell(0, 0);
            var fva0 := map[c := 5.0];
            var pct := map[c := 4.0];
            CompareCells(V15, own, AuxCellSpec(V15, fva0, pct), f).status != Pass
            && CompareCells(V13, own, AuxCellSpec(V13, fva0, pct), f).status == Pass
  {
    var c := Cell(0, 0);
    var fva0 := map[c := 5.0];
    var pct := map[c := 4.0];
    assert pct[c] - fva0[c] == -1.0;
    assert PctViolates15(own, fva0, pct, c);
    AuxCellViolations15(own, fva0, pct, f, c);
    forall c' | c' in CompareCells(V13, own, AuxCellSpec(V13, fva0, pct), f).violations
      ensures false
    {
      AuxCellViolations13(own, fva0, pct, f, c');
      assert c' == c;
      assert fva0[c] - pct[c] == 1.0;
      assert Within(own, 0.95, 1.05, 1.0);
    }
  }

  /** The status of a flagged tier pair names the pair: in version 1.5 the
      warning with the higher and lower digits, in version 1.3 the failure
      status of `cellDiff{higher}_{lower}_pts.shp` in the evidence folder. */
  lemma FvaCellStatus(v: Version, own: Ownership, rs: RasterSet, p: (Tier, Tier), f: Folders)
    requires CompareCells(v, own, FvaCellSpec(rs, p), f).violations != {}
    ensures var st := CompareCells(v, own, FvaCellSpec(rs, p), f).status;
            match v
            case V15 => st == PairWarning(TierLabel(p.1), TierLabel(p.0))
            case V13 => st == FailStatus(Join(f.evidence, "cellDiff" + TierLabel(p.1) + "_" + TierLabel(p.0) + "_pts.shp"))
  {
    var r := CompareCells(v, own, FvaCellSpec(rs, p), f);
    var h := p.1.Digit();
    var l := p.0.Digit();
    PointsNameOfPair(f.temp, h, l);
    assert |r.points.Keys| > 0 by {
      assert r.points.Keys == r.violations;
    }
    if v == V15 {
      CellStatusNamesPair(f, h, l, |r.points.Keys|);
    } else {
      EvidenceRoundTrip(r.pointsPath);
    }
  }

  /** In version 1.5 a flagged 0.2 percent pair gets the fixed 0.2 percent warning. */
  lemma AuxCellStatus15(own: Ownership, fva0: Raster, pct: Raster, f: Folders)
    requires CompareCells(V15, own, AuxCellSpec(V15, fva0, pct), f).violations != {}
    ensures CompareCells(V15, own, AuxCellSpec(V15, fva0, pct), f).status == AuxWarning
  {
    var r := CompareCells(V15, own, AuxCellSpec(V15, fva0, pct), f);
    assert |r.points.Keys| > 0 by {
      assert r.points.Keys == r.violations;
    }
    CellStatusNamesAux(f, |r.points.Keys|);
  }
}

=== FILE: extent.dfy ===
/** `compareExtent` and `compareExtent02`: a pair of rasters passes when the
    first one's footprint lies inside the second one's. Both differences are
    written, but only the first one (the evidence layer) decides the status. */
module Extent {
  import opened Wrappers
  import opened Text
  import opened Rasters
  import opened Status
  import opened Artifacts

  /** What one pair comparison leaves behind: the evidence layer (first
      footprint minus second) with its path, the reverse difference that is
      written to the scratch folder, and the status. */
  datatype ExtentOutcome = ExtentOutcome(
    evidence: set<Cell>, evidencePath: String,
    reverse: set<Cell>, reversePath: String,
    status: String)

  /** One pair, as the source unrolls it: erase in both directions and count
      the features of the evidence layer. The feature count is positive
      exactly when the erased region is non-empty. */
  function ComparePair(a: Raster, b: Raster, evidencePath: String, reversePath: String): (r: ExtentOutcome)
    ensures r.evidence == Footprint(a) - Footprint(b)
    ensures r.reverse == Footprint(b) - Footprint(a)
    ensures r.status == Pass <==> Footprint(a) <= Footprint(b)
    ensures EvidenceOf(r.status) == (if Footprint(a) <= Footprint(b) then None else Some(evidencePath))
  {
    var evidence := Erase(Footprint(a), Footprint(b));
    var reverse := Erase(Footprint(b), Footprint(a));
    assert |evidence| == 0 <==> Footprint(a) <= Footprint(b) by {
      assert |evidence| == 0 <==> evidence == {};
    }
    ExtentOutcome(evidence, evidencePath, reverse, reversePath, StatusOf(|evidence|, evidencePath))
  }

  /** The status depends on the evidence difference only: two comparisons of
      the same first raster whose evidence regions agree get the same status,
      however much their reverse differences differ. */
  lemma StatusIgnoresReverse(a: Raster, b: Raster, b2: Raster, path: String, rev: String, rev2: String)
    requires Footprint(a) - Footprint(b) == Footprint(a) - Footprint(b2)
    ensures ComparePair(a, b, path, rev).status == ComparePair(a, b2, path, rev2).status
  {
    var r := ComparePair(a, b, path, rev);
    var r2 := ComparePair(a, b2, path, rev2);
    assert Footprint(a) <= Footprint(b) <==> Footprint(a) <= Footprint(b2) by {
      assert Footprint(a) <= Footprint(b) <==> Footprint(a) - Footprint(b) == {};
      assert Footprint(a) <= Footprint(b2) <==> Footprint(a) - Footprint(b2) == {};
    }
    if !(Footprint(a) <= Footprint(b)) {
      assert r.status == FailStatus(path);
      assert r2.status == FailStatus(path);
    }
  }

  // ---------------------------------------------------------------------
  // The instances of the tools

  /** A tier pair (lower, higher): evidence `diffFva{lower}_{higher}.shp` in
      the evidence folder, reverse `diffFva{higher}_{lower}.shp` in the scratch folder. */
  function CompareFvaPair(rs: RasterSet, p: (Tier, Tier), f: Folders): ExtentOutcome
  {
    ComparePair(TierRaster(rs, p.0), TierRaster(rs, p.1),
                Join(f.evidence, DiffName(TierLabel(p.0), TierLabel(p.1))),
                Join(f.temp, DiffName(TierLabel(p.1), TierLabel(p.0))))
  }

  /** `compareExtent`: the statuses of the three adjacent tier pairs, lowest first.
      Each passes exactly when the lower tier's footprint lies within the higher one's. */
  function CompareExtent(rs: RasterSet, f: Folders): (r: seq<String>)
    ensures |r| == |FvaPairs|
    ensures forall i :: 0 <= i < |r| ==>
              (r[i] == Pass <==> Footprint(TierRaster(rs, FvaPairs[i].0)) <= Footprint(TierRaster(rs, FvaPairs[i].1)))
    ensures forall i :: 0 <= i < |r| && r[i] != Pass ==>
              r[i] == FailStatus(Join(f.evidence, DiffName(TierLabel(FvaPairs[i].0), TierLabel(FvaPairs[i].1))))
  {
    seq(|FvaPairs|, i requires 0 <= i < |FvaPairs| => CompareFvaPair(rs, FvaPairs[i], f).status)
  }

  /** `compareExtent02`: the evidence layer is FVA0 minus the 0.2 percent
      raster (`diffFva0_02.shp`); the 0.2 percent raster reaching beyond FVA0
      (`diffFva02_0.shp`) only goes to the scratch folder. */
  function CompareExtentAux(fva0: Raster, pct: Raster, f: Folders): (r: ExtentOutcome)
    ensures r.status == Pass <==> Footprint(fva0) <= Footprint(pct)
    ensures r.status != Pass ==> r.status == FailStatus(Join(f.evidence, DiffName("0", PctLabel)))
  {
    ComparePair(fva0, pct, Join(f.evidence, DiffName("0", PctLabel)), Join(f.temp, DiffName(PctLabel, "0")))
  }

  /** The evidence layers of the three pairs are the literal names of the source. */
  lemma EvidenceNames(rs: RasterSet, pct: Raster, f: Folders)
    ensures CompareFvaPair(rs, FvaPairs[0], f).evidencePath == Join(f.evidence, "diffFva0_1.shp")
    ensures CompareFvaPair(rs, FvaPairs[1], f).evidencePath == Join(f.evidence, "diffFva1_2.shp")
    ensures CompareFvaPair(rs, FvaPairs[2], f).evidencePath == Join(f.evidence, "diffFva2_3.shp")
    ensures CompareExtentAux(rs.fva0, pct, f).evidencePath == Join(f.evidence, "diffFva0_02.shp")
  {
    assert TierLabel(T0) == "0" && TierLabel(T1) == "1" && TierLabel(T2) == "2" && TierLabel(T3) == "3";
    assert DiffName("0", "1") == "diffFva0_1.shp";
    assert DiffName("1", "2") == "diffFva1_2.shp";
    assert DiffName("2", "3") == "diffFva2_3.shp";
    assert DiffName("0", PctLabel) == "diffFva0_02.shp";
  }

  /** When all three pairs pass, the footprints are nested from FVA0 up to FVA3. */
  lemma PassingExtentsNest(rs: RasterSet, f: Folders)
    requires forall i :: 0 <= i < |FvaPairs| ==> CompareExtent(rs, f)[i] == Pass
    ensures Footprint(rs.fva0) <= Footprint(rs.fva1) <= Footprint(rs.fva2) <= Footprint(rs.fva3)
  {
    PairPassNests(rs, f, 0);
    PairPassNests(rs, f, 1);
    PairPassNests(rs, f, 2);
  }

  /** A passing tier pair i nests the footprint of tier i in that of tier i + 1. */
  lemma PairPassNests(rs: RasterSet, f: Folders, i: nat)
    requires i < |FvaPairs| && CompareExtent(rs, f)[i] == Pass
    ensures i == 0 ==> Footprint(rs.fva0) <= Footprint(rs.fva1)
    ensures i == 1 ==> Footprint(rs.fva1) <= Footprint(rs.fva2)
    ensures i == 2 ==> Footprint(rs.fva2) <= Footprint(rs.fva3)
  {
    var p := FvaPairs[i];
    assert Footprint(TierRaster(rs, p.0)) <= Footprint(TierRaster(rs, p.1));
  }

}

=== FILE: filenames.dfy ===
/** The two small name helpers of version 1.5: `parse_filename`, which reads
    the naming prefix and study type off the tier-0 raster name, and
    `get_unique_filename`, which picks the first free `base_k.ext` for the
    report file. */
module FileNames {
  import opened Wrappers
  import opened Text

  // ---------------------------------------------------------------------
  // parse_filename

  datatype NameParts = NameParts(prefix: String, studyType: String, frequency: String)

  /** The `ValueError("Input raster names are invalid.")` of the source. */
  datatype ParseError = InvalidRasterNames

  /** `parse_filename`: split on every `_` and `.`; fewer than five pieces is an
      error; otherwise the first piece, the last three characters of the
      third piece from the end, and the fourth piece. */
  function ParseFilename(name: String): (r: Result<NameParts, ParseError>)
    ensures r.Success? <==> |Delimiters(name)| >= 4
    ensures r.Success? ==> NoDelimiter(r.value.prefix) && NoDelimiter(r.value.frequency)
    ensures r.Success? ==> |r.value.studyType| <= 3
  {
    var parts := Split(name);
    if |parts| < 5 then Failure(InvalidRasterNames)
    else Success(NameParts(parts[0], SliceFrom(parts[|parts| - 3], -3), parts[3]))
  }

  /** The first piece is where the name starts. */
  lemma {:induction false} JoinStartsWithFirst(parts: seq<String>, seps: seq<char>)
    requires |parts| == |seps| + 1
    ensures parts[0] <= JoinWith(parts, seps)
  {
  }

  /** The prefix read off a valid name is the run of characters before its first `_` or `.`. */
  lemma ParsedPrefixStartsName(name: String)
    requires ParseFilename(name).Success?
    ensures ParseFilename(name).value.prefix <= name
    ensures |ParseFilename(name).value.prefix| < |name|
    ensures IsDelimiter(name[|ParseFilename(name).value.prefix|])
  {
    var parts := Split(name);
    var ds := Delimiters(name);
    SplitThenJoin(name);
    assert name == parts[0] + [ds[0]] + JoinWith(parts[1..], ds[1..]);
  }

  /** Round trip: a name assembled from at least five separator-free pieces
      parses to its first piece, the last three characters of its third piece
      from the end, and its fourth piece, whichever separators were used. */
  lemma ParseAssembledName(parts: seq<String>, seps: seq<char>)
    requires |parts| >= 5 && |parts| == |seps| + 1
    requires forall i :: 0 <= i < |parts| ==> NoDelimiter(parts[i])
    requires forall i :: 0 <= i < |seps| ==> IsDelimiter(seps[i])
    ensures ParseFilename(JoinWith(parts, seps))
         == Success(NameParts(parts[0], SliceFrom(parts[|parts| - 3], -3), parts[3]))
  {
    JoinThenSplit(parts, seps);
    ParseOfPieces(JoinWith(parts, seps), parts);
  }

  /** What `parse_filename` reads off a name that splits into at least five pieces. */
  lemma ParseOfPieces(name: String, parts: seq<String>)
    requires Split(name) == parts && |parts| >= 5
    ensures ParseFilename(name) == Success(NameParts(parts[0], SliceFrom(parts[|parts| - 3], -3), parts[3]))
  {
  }

  /** A name with fewer than four separators is rejected, so the run stops. */
  lemma ParseRejectsShortNames(name: String)
    requires |Delimiters(name)| < 4
    ensures ParseFilename(name) == Failure(InvalidRasterNames)
  {
  }

  /** The usual tier-0 name `<prefix>_<a>_<study>_00FVA.tif`: prefix, the last three
      letters of the study field, and the tier token as the frequency. */
  lemma ParseTypicalName(prefix: String, a: String, study: String)
    requires NoDelimiter(prefix) && NoDelimiter(a) && NoDelimiter(study)
    requires |study| >= 3
    ensures ParseFilename(prefix + "_" + a + "_" + study + "_00FVA.tif")
         == Success(NameParts(prefix, study[|study| - 3..], "00FVA"))
  {
    var parts := [prefix, a, study, "00FVA", "tif"];
    var seps := ['_', '_', '_', '.'];
    TypicalNameJoined(prefix, a, study);
    assert NoDelimiter("00FVA") && NoDelimiter("tif");
    ParseAssembledName(parts, seps);
    SliceFromEnd(study, 3);
  }

  /** The usual tier-0 name is its five pieces joined by `_`, `_`, `_` and `.`. */
  lemma TypicalNameJoined(prefix: String, a: String, study: String)
    ensures JoinWith([prefix, a, study, "00FVA", "tif"], ['_', '_', '_', '.'])
         == prefix + "_" + a + "_" + study + "_00FVA.tif"
  {
    var parts := [prefix, a, study, "00FVA", "tif"];
    var seps := ['_', '_', '_', '.'];
    assert JoinWith(parts[4..], seps[4..]) == "tif";
    assert JoinWith(parts[3..], seps[3..]) == "00FVA" + "." + "tif";
    assert JoinWith(parts[2..], seps[2..]) == study + "_" + "00FVA.tif";
    assert JoinWith(parts[1..], seps[1..]) == a + "_" + study + "_00FVA.tif";
  }

  // ---------------------------------------------------------------------
  // os.path.splitext

  /** Position of the last `.` of s, or -1. */
  function LastDot(s: String): (i: int)
    ensures -1 <= i < |s|
    ensures i >= 0 ==> s[i] == '.'
    ensures forall j :: i < j < |s| ==> s[j] != '.'
    decreases |s|
  {
    if s == [] then -1
    else if s[|s| - 1] == '.' then |s| - 1
    else LastDot(s[..|s| - 1])
  }

  predicate AllDots(s: String)
  {
    forall i :: 0 <= i < |s| ==> s[i] == '.'
  }

  /** The name has an extension in the sense of `os.path.splitext`: some `.`
      comes after a character that is not a `.` (leading dots do not count). */
  ghost predicate HasExtension(name: String)
  {
    exists i, j :: 0 <= j < i < |name| && name[i] == '.' && name[j] != '.'
  }

  /** `os.path.splitext` of a bare file name (no directory part). */
  function SplitExt(name: String): (r: (String, String))
    ensures r.0 + r.1 == name
    ensures r.1 != [] <==> HasExtension(name)
    ensures r.1 != [] ==> r.1[0] == '.' && forall i :: 1 <= i < |r.1| ==> r.1[i] != '.'
  {
    var d := LastDot(name);
    if d < 0 || AllDots(name[..d]) then
      assert !HasExtension(name) by {
        forall i, j | 0 <= j < i < |name| && name[i] == '.'
          ensures name[j] == '.'
        {
          assert i <= d;
          assert name[..d][j] == name[j];
        }
      }
      (name, [])
    else
      assert name[..d] + name[d..] == name;
      (name[..d], name[d..])
  }

  // ---------------------------------------------------------------------
  // get_unique_filename

  /** The k-th name tried: the name itself first, then `base_k.ext`. */
  function Candidate(name: String, k: nat): String
  {
    if k == 0 then name
    else SplitExt(name).0 + "_" + NatToString(k) + SplitExt(name).1
  }

  /** No two attempts try the same name, so the search cannot cycle. */
  lemma CandidateInjective(name: String, i: nat, j: nat)
    requires Candidate(name, i) == Candidate(name, j)
    ensures i == j
  {
    var base := SplitExt(name).0;
    var ext := SplitExt(name).1;
    if i != 0 && j != 0 {
      var ci := Candidate(name, i);
      var si := NatToString(i);
      var sj := NatToString(j);
      assert |si| == |sj|;
      assert ci[|base| + 1..|base| + 1 + |si|] == si;
      assert Candidate(name, j)[|base| + 1..|base| + 1 + |sj|] == sj;
      NatToStringInjective(i, j);
    }
  }

  /** The names tried before attempt n. */
  ghost function Tried(name: String, n: nat): set<String>
  {
    if n == 0 then {} else Tried(name, n - 1) + {Candidate(name, n - 1)}
  }

  /** The names tried before attempt n are the first n candidates. */
  lemma {:induction false} TriedMembers(name: String, n: nat)
    ensures forall x :: x in Tried(name, n) <==> exists j :: 0 <= j < n && x == Candidate(name, j)
  {
    if n > 0 {
      TriedMembers(name, n - 1);
      var c := Candidate(name, n - 1);
      assert Tried(name, n) == Tried(name, n - 1) + {c};
      forall x
        ensures x in Tried(name, n) <==> exists j :: 0 <= j < n && x == Candidate(name, j)
      {
        if x in Tried(name, n - 1) {
          var j :| 0 <= j < n - 1 && x == Candidate(name, j);
          assert 0 <= j < n && x == Candidate(name, j);
        } else if x == c {
          assert 0 <= n - 1 < n && x == Candidate(name, n - 1);
        } else {
          forall j | 0 <= j < n
            ensures x != Candidate(name, j)
          {
            if j == n - 1 {
              assert Candidate(name, j) == c;
            }
          }
        }
      }
    }
  }

  /** The attempts before n are n different names. */
  lemma {:induction false} TriedSize(name: String, n: nat)
    ensures |Tried(name, n)| == n
  {
    if n > 0 {
      TriedSize(name, n - 1);
      TriedMembers(name, n - 1);
      var c := Candidate(name, n - 1);
      if c in Tried(name, n - 1) {
        var j :| 0 <= j < n - 1 && c == Candidate(name, j);
        CandidateInjective(name, j, n - 1);
      }
    }
  }

  lemma SubsetCardinality<T>(a: set<T>, b: set<T>)
    requires a <= b
    ensures |a| <= |b|
  {
    assert b == a + (b - a);
  }

  /** The first attempt not in the folder is the name itself exactly when the name is free. */
  lemma FirstFree(existing: set<String>, name: String, index: nat)
    requires Candidate(name, index) !in existing
    requires forall j :: 0 <= j < index ==> Candidate(name, j) in existing
    ensures name !in existing ==> index == 0 && Candidate(name, index) == name
    ensures name in existing ==>
              exists k :: 1 <= k && Candidate(name, index) == Candidate(name, k)
                          && forall j :: 1 <= j < k ==> Candidate(name, j) in existing
  {
    if index > 0 {
      assert Candidate(name, 0) in existing;
    }
    if name in existing {
      assert index != 0;
    }
  }

  /** `get_unique_filename` over the names already present in the folder:
      the name itself when free, otherwise `base_k.ext` for the smallest k >= 1
      not present. The result is never an existing name. */
  method UniqueFilename(existing: set<String>, name: String) returns (r: String)
    ensures r !in existing
    ensures name !in existing ==> r == name
    ensures name in existing ==>
              exists k :: 1 <= k && r == Candidate(name, k)
                          && forall j :: 1 <= j < k ==> Candidate(name, j) in existing
  {
    var index: nat := 0;
    while true
      invariant Tried(name, index) <= existing
      invariant forall j :: 0 <= j < index ==> Candidate(name, j) in existing
      decreases |existing| - index
    {
      var c := Candidate(name, index);
      if c !in existing {
        FirstFree(existing, name, index);
        return c;
      }
      assert Tried(name, index + 1) == Tried(name, index) + {c};
      TriedSize(name, index + 1);
      SubsetCardinality(Tried(name, index + 1), existing);
      index := index + 1;
    }
  }
}

=== FILE: pipeline.dfy ===
/** The main flow of each version: which stages run, which are skipped, when
    the Spatial Analyst extension is checked back in, and the report the
    comparisons end up in. A stage's engine calls are not modelled; whether
    an exception escapes them is an input (`faults`, the stages from which an
    exception reaches the main `try`). Each helper catches its own engine
    errors and still returns, so a stage is in `faults` only when its
    `return` reads a name that was never bound. */
module Pipeline {
  import opened Wrappers
  import opened Text
  import opened Rasters
  import opened Remap
  import opened Status
  import opened Artifacts
  import opened Resolver
  import opened FileNames
  import opened Extent
  import opened CellValue
  import opened Report

  datatype Outcome = Completed | Failed | Skipped

  // ---------------------------------------------------------------------
  // Version 1.5: stages gated on `exception_occured`

  datatype Stage = CompareExtentStage | CompareCellStage | ExportPointsStage
                 | CellStatusStage | PropertiesStage | CsvStage

  const Stages15: seq<Stage> := [CompareExtentStage, CompareCellStage, ExportPointsStage,
                                 CellStatusStage, PropertiesStage, CsvStage]

  /** The gated stages, from the value of the flag before the first one: a
      stage runs only while the flag is clear, and a stage that raises sets
      it. Nothing clears it. */
  function Gate(stages: seq<Stage>, faults: set<Stage>, raised: bool): (outs: seq<Outcome>)
    ensures |outs| == |stages|
    decreases |stages|
  {
    if stages == [] then []
    else
      var first := if raised then Skipped else if stages[0] in faults then Failed else Completed;
      [first] + Gate(stages[1..], faults, raised || stages[0] in faults)
  }

  /** Stage i is skipped exactly when the flag was already set or an earlier
      stage raised, and it fails exactly when it raises itself and the flag
      was clear and no earlier stage raised. */
  lemma {:induction false} GateAt(stages: seq<Stage>, faults: set<Stage>, raised: bool, i: nat)
    requires i < |stages|
    ensures Gate(stages, faults, raised)[i] == Skipped
            <==> raised || exists j :: 0 <= j < i && stages[j] in faults
    ensures Gate(stages, faults, raised)[i] == Failed
            <==> !raised && stages[i] in faults && forall j :: 0 <= j < i ==> stages[j] !in faults
    decreases i
  {
    if i > 0 {
      var outs := Gate(stages, faults, raised);
      var raised' := raised || stages[0] in faults;
      var tail := stages[1..];
      assert outs[i] == Gate(tail, faults, raised')[i - 1];
      GateAt(tail, faults, raised', i - 1);
      assert stages[i] == tail[i - 1];
      assert (exists j :: 0 <= j < i && stages[j] in faults)
             <==> stages[0] in faults || exists j :: 0 <= j < i - 1 && tail[j] in faults by {
        if exists j :: 0 <= j < i - 1 && tail[j] in faults {
          var j :| 0 <= j < i - 1 && tail[j] in faults;
          assert stages[j + 1] == tail[j];
        }
        if exists j :: 0 <= j < i && stages[j] in faults {
          var j :| 0 <= j < i && stages[j] in faults;
          if j > 0 {
            assert tail[j - 1] == stages[j];
          }
        }
      }
    }
  }

  /** Once a stage has failed or been skipped, every later stage is skipped:
      the flag is never cleared. */
  lemma FlagNeverCleared(stages: seq<Stage>, faults: set<Stage>, raised: bool, i: nat, j: nat)
    requires i < j < |stages|
    requires Gate(stages, faults, raised)[i] != Completed
    ensures Gate(stages, faults, raised)[j] == Skipped
  {
    GateAt(stages, faults, raised, i);
    GateAt(stages, faults, raised, j);
    if !raised {
      if Gate(stages, faults, raised)[i] == Failed {
        assert 0 <= i < j && stages[i] in faults;
      } else {
        var k :| 0 <= k < i && stages[k] in faults;
        assert 0 <= k < j && stages[k] in faults;
      }
    }
  }

  /** At most one stage fails. */
  lemma AtMostOneFailure(stages: seq<Stage>, faults: set<Stage>, raised: bool, i: nat, j: nat)
    requires i < j < |stages|
    requires Gate(stages, faults, raised)[i] == Failed
    ensures Gate(stages, faults, raised)[j] != Failed
  {
    FlagNeverCleared(stages, faults, raised, i, j);
  }

  /** Why a version 1.5 run stops before its stages: the resolver refused
      the listing, or `parse_filename` refused the tier-0 name. */
  datatype Halt = Unresolved(resolveError: ResolveError) | BadName(parseError: ParseError)

  /** A version 1.5 run: the stage outcomes, and whether the extension was
      checked back in. */
  datatype Run15 = Halted(why: Halt) | Ran(outcomes: seq<Outcome>, checkedIn: bool)

  /** The control flow of version 1.5 over the raster folder's listing: the
      resolver and `parse_filename` come first, outside the log block; once
      they succeed, the six stages run gated, and the extension check-in and
      the final log lines follow whatever happened to the stages. */
  function Control15(listing: seq<String>, faults: set<Stage>): (r: Run15)
    ensures r.Ran? <==> Resolve(listing).Success? && ParseFilename(Resolve(listing).value.fva0).Success?
    ensures r.Ran? ==> r.checkedIn && r.outcomes == Gate(Stages15, faults, false)
  {
    match Resolve(listing)
    case Failure(e) => Halted(Unresolved(e))
    case Success(inp) =>
      match ParseFilename(inp.fva0)
      case Failure(e) => Halted(BadName(e))
      case Success(_) => Ran(Gate(Stages15, faults, false), true)
  }

  /** Version 1.5's CSV stage completes exactly when the listing resolves,
      the tier-0 name parses and no exception escapes a stage. A duplicate token stops the
      run before any stage, and then the extension is not checked in. */
  lemma Report15Written(listing: seq<String>, faults: set<Stage>)
    ensures var r := Control15(listing, faults);
            (r.Ran? && r.outcomes[5] == Completed)
            <==> Resolve(listing).Success? && ParseFilename(Resolve(listing).value.fva0).Success?
                 && forall s :: s in Stages15 ==> s !in faults
    ensures !DuplicateFree(listing) ==> Control15(listing, faults) == Halted(Unresolved(DuplicateToken))
  {
    ResolveGoNoGo(listing);
    GateAt(Stages15, faults, false, 5);
    assert (forall s :: s in Stages15 ==> s !in faults)
           <==> forall j :: 0 <= j < 6 ==> Stages15[j] !in faults;
  }

  // ---------------------------------------------------------------------
  // Version 1.3: every stage in its own `try`, no gating

  datatype Stage13 = Extent13 | CellValue13 | Points13 | Properties13 | Csv13

  const Stages13: seq<Stage13> := [Extent13, CellValue13, Points13, Properties13, Csv13]

  /** The stages whose results a stage reads: exporting the points needs
      the reclassified rasters, the CSV needs the extent statuses, the cell
      statuses and the property lists. */
  function Needs13(s: Stage13): set<Stage13>
  {
    match s
    case Points13 => {CellValue13}
    case Csv13 => {Extent13, Points13, Properties13}
    case _ => {}
  }

  function Rank13(s: Stage13): nat
  {
    match s
    case Extent13 => 0
    case CellValue13 => 1
    case Points13 => 2
    case Properties13 => 3
    case Csv13 => 4
  }

  /** A stage fails when an exception escapes it to its own `try`, or when
      it reads a name that a failed stage never bound. */
  predicate Fails13(faults: set<Stage13>, s: Stage13)
    decreases Rank13(s)
  {
    s in faults || exists d :: d in Needs13(s) && Rank13(d) < Rank13(s) && Fails13(faults, d)
  }

  datatype Run13 = Run13(outcomes: seq<Outcome>, checkedIn: bool)

  /** Version 1.3's control flow: if reading the configuration raises, every
      stage is passed over; otherwise every stage runs, whatever happened to
      the others. The extension is checked in from `finally`, always. */
  function Control13(configOk: bool, faults: set<Stage13>): (r: Run13)
    ensures |r.outcomes| == |Stages13|
    ensures r.checkedIn
    ensures configOk ==> forall i :: 0 <= i < |r.outcomes| ==> r.outcomes[i] != Skipped
    ensures !configOk ==> forall i :: 0 <= i < |r.outcomes| ==> r.outcomes[i] == Skipped
  {
    var outs := seq(|Stages13|, i requires 0 <= i < |Stages13| =>
                      if !configOk then Skipped else if Fails13(faults, Stages13[i]) then Failed else Completed);
    Run13(outs, true)
  }

  /** Version 1.3's CSV stage completes exactly when the configuration is
      read and no exception escapes any of the five stages: the CSV reads the results of every
      other stage, directly or through the point export. */
  lemma Report13Written(configOk: bool, faults: set<Stage13>)
    ensures Control13(configOk, faults).outcomes[4] == Completed
            <==> configOk && forall s :: s in Stages13 ==> s !in faults
  {
    assert Stages13[4] == Csv13;
    if configOk && Csv13 !in faults && !Fails13(faults, Csv13) {
      assert !Fails13(faults, Points13);
      assert !Fails13(faults, CellValue13);
      forall s | s in Stages13 ensures s !in faults {
        assert !Fails13(faults, s);
      }
    }
  }

  /** Unlike version 1.5, a failed extent compare does not stop the
      property stage: version 1.3 still reads the properties. */
  lemma Properties13AfterExtentFailure(faults: set<Stage13>)
    requires Extent13 in faults && Properties13 !in faults
    ensures Control13(true, faults).outcomes[0] == Failed
    ensures Control13(true, faults).outcomes[3] == Completed
  {
    assert Stages13[0] == Extent13 && Stages13[3] == Properties13;
    assert !Fails13(faults, Properties13);
  }

  /** The same failure in version 1.5 skips every later stage. */
  lemma Properties15AfterExtentFailure(faults: set<Stage>)
    requires CompareExtentStage in faults
    ensures Gate(Stages15, faults, false)[0] == Failed
    ensures forall i :: 1 <= i < |Stages15| ==> Gate(Stages15, faults, false)[i] == Skipped
  {
    GateAt(Stages15, faults, false, 0);
    forall i | 1 <= i < |Stages15| ensures Gate(Stages15, faults, false)[i] == Skipped {
      FlagNeverCleared(Stages15, faults, false, 0, i);
    }
  }

  // ---------------------------------------------------------------------
  // From the rasters to the report

  /** The statuses of one run: the three tier pairs, then the 0.2 percent
      pair when that raster is present. Tier pair i's extent status passes
      exactly when the lower tier's footprint lies within the higher one's,
      its cell status exactly when the pair's cells agree. */
  function RunStatuses(v: Version, own: Ownership, rs: RasterSet, pct: Option<Raster>, f: Folders): (st: Statuses)
    ensures WellFormed(st)
    ensures forall i :: 0 <= i < |FvaPairs| ==>
              (st.extent[i] == Pass <==> Footprint(TierRaster(rs, FvaPairs[i].0)) <= Footprint(TierRaster(rs, FvaPairs[i].1)))
    ensures forall i :: 0 <= i < |FvaPairs| ==>
              (st.cell[i] == Pass <==> FvaCellsAgree(own, TierRaster(rs, FvaPairs[i].0), TierRaster(rs, FvaPairs[i].1)))
    ensures st.pct.Some? <==> pct.Some?
    ensures pct.Some? ==> (st.pct.value.0 == Pass <==> Footprint(rs.fva0) <= Footprint(pct.value))
    ensures pct.Some? && v == V15 ==> (st.pct.value.1 == Pass <==> PctCellsAgree15(own, rs.fva0, pct.value))
    ensures pct.Some? && v == V13 ==> (st.pct.value.1 == Pass <==> FvaCellsAgree(own, pct.value, rs.fva0))
  {
    Statuses(CompareExtent(rs, f), CellStatuses(v, own, rs, f), AuxStatuses(v, own, rs.fva0, pct, f))
  }

  /** The cell statuses of the three tier pairs, lowest first: status i
      passes exactly when pair i's cells agree under the FVA remap. */
  function CellStatuses(v: Version, own: Ownership, rs: RasterSet, f: Folders): (r: seq<String>)
    ensures |r| == |FvaPairs|
    ensures forall i :: 0 <= i < |r| ==>
              (r[i] == Pass <==> FvaCellsAgree(own, TierRaster(rs, FvaPairs[i].0), TierRaster(rs, FvaPairs[i].1)))
  {
    PairCellVerdicts(v, own, rs, f);
    seq(|FvaPairs|, i requires 0 <= i < |FvaPairs| => CompareCells(v, own, FvaCellSpec(rs, FvaPairs[i]), f).status)
  }

  lemma PairCellVerdicts(v: Version, own: Ownership, rs: RasterSet, f: Folders)
    ensures forall i :: 0 <= i < |FvaPairs| ==>
              (CompareCells(v, own, FvaCellSpec(rs, FvaPairs[i]), f).status == Pass
               <==> FvaCellsAgree(own, TierRaster(rs, FvaPairs[i].0), TierRaster(rs, FvaPairs[i].1)))
  {
    forall i | 0 <= i < |FvaPairs|
      ensures CompareCells(v, own, FvaCellSpec(rs, FvaPairs[i]), f).status == Pass
              <==> FvaCellsAgree(own, TierRaster(rs, FvaPairs[i].0), TierRaster(rs, FvaPairs[i].1))
    {
      FvaCellVerdict(v, own, rs, FvaPairs[i], f);
    }
  }

  /** The extent and cell statuses of the 0.2 percent pair, when that raster
      is present: the extent status passes exactly when FVA0's footprint lies
      within the 0.2 percent raster's, the cell status exactly when the pair
      agrees under the version's rule. */
  function AuxStatuses(v: Version, own: Ownership, fva0: Raster, pct: Option<Raster>, f: Folders): (r: Option<(String, String)>)
    ensures r.Some? <==> pct.Some?
    ensures pct.Some? ==> (r.value.0 == Pass <==> Footprint(fva0) <= Footprint(pct.value))
    ensures pct.Some? && v == V15 ==> (r.value.1 == Pass <==> PctCellsAgree15(own, fva0, pct.value))
    ensures pct.Some? && v == V13 ==> (r.value.1 == Pass <==> FvaCellsAgree(own, pct.value, fva0))
  {
    match pct
    case None => None
    case Some(p) =>
      AuxCellVerdict15(own, fva0, p, f);
      AuxCellVerdict13(own, fva0, p, f);
      Some((CompareExtentAux(fva0, p, f).status, CompareCells(v, own, AuxCellSpec(v, fva0, p), f).status))
  }

  /** The rows a completed run writes, with version 1.5's intended QC codes. */
  function RunReport(v: Version, own: Ownership, rs: RasterSet, pct: Option<Raster>, f: Folders, meta: seq<seq<String>>): seq<seq<String>>
    requires |meta| == if pct.Some? then 5 else 4
  {
    var st := RunStatuses(v, own, rs, pct, f);
    match v
    case V15 => ReportRows(Header15, QcList15, meta, st)
    case V13 => ReportRows(Header13, QcList13, meta, st)
  }

  /** The rows version 1.5 writes as the code stands, with its ten QC codes. */
  function RunReport15AsWritten(own: Ownership, rs: RasterSet, pct: Option<Raster>, f: Folders, meta: seq<seq<String>>): seq<seq<String>>
    requires |meta| == if pct.Some? then 5 else 4
  {
    ReportRows(Header15, QcList15AsWritten, meta, RunStatuses(V15, own, rs, pct, f))
  }

  /** End to end, version 1.5 with the intended codes: the extent row and the
      cell row of the report carry, in the column of tier pair i, that pair's
      footprint and cell verdicts. */
  lemma Report15Verdicts(own: Ownership, rs: RasterSet, pct: Option<Raster>, f: Folders, meta: seq<seq<String>>, i: nat)
    requires |meta| == if pct.Some? then 5 else 4
    requires MetaWidth(meta, 6)
    requires i < |FvaPairs|
    ensures var rows := RunReport(V15, own, rs, pct, f, meta);
            |rows| == 11 && |rows[8]| == 2 + |meta| && |rows[9]| == 2 + |meta|
    ensures var rows := RunReport(V15, own, rs, pct, f, meta);
            var lo := TierRaster(rs, FvaPairs[i].0);
            var hi := TierRaster(rs, FvaPairs[i].1);
            (rows[8][2 + i] == Pass <==> Footprint(lo) <= Footprint(hi))
            && (rows[9][2 + i] == Pass <==> FvaCellsAgree(own, lo, hi))
  {
    var st := RunStatuses(V15, own, rs, pct, f);
    var rows := RunReport(V15, own, rs, pct, f, meta);
    assert rows == ReportRows(Header15, QcList15, meta, st);
    Report15StatusCells(meta, st, i);
    assert rows[8][2 + i] == st.extent[i] && rows[9][2 + i] == st.cell[i];
  }

  /** End to end, version 1.5 with the intended codes and the 0.2 percent
      raster: its column of the extent row and the cell row carries that
      pair's footprint and cell verdicts. */
  lemma Report15PctVerdicts(own: Ownership, rs: RasterSet, p: Raster, f: Folders, meta: seq<seq<String>>)
    requires |meta| == 5
    requires MetaWidth(meta, 6)
    ensures var rows := RunReport(V15, own, rs, Some(p), f, meta);
            |rows| == 11 && |rows[8]| == 7 && |rows[9]| == 7
    ensures var rows := RunReport(V15, own, rs, Some(p), f, meta);
            (rows[8][6] == Pass <==> Footprint(rs.fva0) <= Footprint(p))
            && (rows[9][6] == Pass <==> PctCellsAgree15(own, rs.fva0, p))
  {
    var st := RunStatuses(V15, own, rs, Some(p), f);
    assert RunReport(V15, own, rs, Some(p), f, meta) == ReportRows(Header15, QcList15, meta, st);
    Report15StatusCells(meta, st, 0);
    Report15PctColumn(meta, st);
  }

  /** End to end, version 1.5 as written: the report has only ten rows, but
      its ninth and tenth rows still carry, in the column of tier pair i,
      that pair's footprint and cell verdicts, under the codes R14 and R17. */
  lemma Report15AsWrittenVerdicts(own: Ownership, rs: RasterSet, pct: Option<Raster>, f: Folders, meta: seq<seq<String>>, i: nat)
    requires |meta| == if pct.Some? then 5 else 4
    requires MetaWidth(meta, 6)
    requires i < |FvaPairs|
    ensures var rows := RunReport15AsWritten(own, rs, pct, f, meta);
            |rows| == 10 && |rows[8]| == 2 + |meta| && |rows[9]| == 2 + |meta|
    ensures var rows := RunReport15AsWritten(own, rs, pct, f, meta);
            rows[8][1] == "R14" && rows[9][1] == "R17"
    ensures var rows := RunReport15AsWritten(own, rs, pct, f, meta);
            var lo := TierRaster(rs, FvaPairs[i].0);
            var hi := TierRaster(rs, FvaPairs[i].1);
            (rows[8][2 + i] == Pass <==> Footprint(lo) <= Footprint(hi))
            && (rows[9][2 + i] == Pass <==> FvaCellsAgree(own, lo, hi))
  {
    var st := RunStatuses(V15, own, rs, pct, f);
    var rows := RunReport15AsWritten(own, rs, pct, f, meta);
    Report15AsWrittenStatusCells(meta, st, i);
    assert rows[8][2 + i] == st.extent[i] && rows[9][2 + i] == st.cell[i];
  }

  /** End to end, version 1.5 as written with the 0.2 percent raster: its
      column of the ninth and tenth rows carries that pair's footprint and
      cell verdicts. */
  lemma Report15AsWrittenPctVerdicts(own: Ownership, rs: RasterSet, p: Raster, f: Folders, meta: seq<seq<String>>)
    requires |meta| == 5
    requires MetaWidth(meta, 6)
    ensures var rows := RunReport15AsWritten(own, rs, Some(p), f, meta);
            |rows| == 10 && |rows[8]| == 7 && |rows[9]| == 7
    ensures var rows := RunReport15AsWritten(own, rs, Some(p), f, meta);
            (rows[8][6] == Pass <==> Footprint(rs.fva0) <= Footprint(p))
            && (rows[9][6] == Pass <==> PctCellsAgree15(own, rs.fva0, p))
  {
    var st := RunStatuses(V15, own, rs, Some(p), f);
    Report15AsWrittenStatusCells(meta, st, 0);
    Report15AsWrittenPctColumn(meta, st);
  }
}

=== FILE: rasters.dfy ===
/** The raster abstraction the comparisons are stated over. A raster is the
    map from the cells that hold a value to that value; cells without a value
    (NoData) are simply absent. Its footprint is the set of cells that hold a
    value, which is what `Int` followed by `RasterToPolygon` outlines. */
module Rasters {
  import opened Text

  datatype Cell = Cell(row: int, col: int)

  type Raster = map<Cell, real>

  /** The region a raster covers: the polygons `RasterToPolygon` draws around
      its integer version cover exactly the cells with a value. */
  function Footprint(r: Raster): set<Cell>
  {
    r.Keys
  }

  /** `Erase(a, b)`: the part of region a outside region b. */
  function Erase(a: set<Cell>, b: set<Cell>): (d: set<Cell>)
    ensures d <= a
    ensures d * b == {}
    ensures forall c :: c in a && c !in b ==> c in d
  {
    a - b
  }

  /** `RasterCalculator([x, y], ["x","y"], "y-x", "UnionOf", "FirstOf")`.
      The extent and cell-size arguments choose the output grid; a cell where
      either input is NoData is NoData in the result, so the difference is
      defined exactly on the cells both rasters cover. */
  function Minus(x: Raster, y: Raster): (d: map<Cell, real>)
    ensures d.Keys == x.Keys * y.Keys
    ensures forall c :: c in d ==> d[c] + x[c] == y[c]
  {
    map c | c in x.Keys * y.Keys :: y[c] - x[c]
  }

  /** The four freeboard tiers, 0 ft to 3 ft above the base flood elevation. */
  datatype Tier = T0 | T1 | T2 | T3 {
    function Index(): nat
    {
      match this
      case T0 => 0
      case T1 => 1
      case T2 => 2
      case T3 => 3
    }

    /** The digit the tools use for the tier in artifact names. */
    function Digit(): char
    {
      DigitChar(Index())
    }
  }

  /** The rasters of one run; the 0.2 percent raster is optional. */
  datatype RasterSet = RasterSet(fva0: Raster, fva1: Raster, fva2: Raster, fva3: Raster)

  function TierRaster(rs: RasterSet, t: Tier): Raster
  {
    match t
    case T0 => rs.fva0
    case T1 => rs.fva1
    case T2 => rs.fva2
    case T3 => rs.fva3
  }

  /** The comparisons run on (lower, higher) tier pairs; the source unrolls
      the three pairs by hand, here they are listed once. */
  const FvaPairs: seq<(Tier, Tier)> := [(T0, T1), (T1, T2), (T2, T3)]

  /** The three pairs are exactly the pairs of adjacent tiers, in increasing order. */
  lemma FvaPairsAreAdjacent()
    ensures forall p :: p in FvaPairs <==> p.1.Index() == p.0.Index() + 1
    ensures forall i :: 0 <= i < |FvaPairs| ==> FvaPairs[i].0.Index() == i
  {
    forall p: (Tier, Tier) | p.1.Index() == p.0.Index() + 1
      ensures p in FvaPairs
    {
      match p.0
      case T0 => assert p == FvaPairs[0];
      case T1 => assert p == FvaPairs[1];
      case T2 => assert p == FvaPairs[2];
      case T3 => assert false;
    }
  }
}

=== FILE: remap.dfy ===
/** `Reclassify(delta, "Value", RemapRange(bands))`: each cell value is given
    the code of the range it falls in. Which of two adjacent ranges owns their
    shared endpoint is decided inside the engine, so it is a parameter here and
    every property below that does not name it holds for both choices. The
    outer ends of the first and the last range belong to them either way. A value
    that falls in no listed range is left unclassified: the engine keeps its
    value, which is never code 1. */
module Remap {

  /** Which of two adjacent ranges owns their shared endpoint: the upper
      one (ranges read [lo, hi)) or the lower one (ranges read (lo, hi]). */
  datatype Ownership = LowerInclusive | UpperInclusive

  datatype Band = Band(lo: real, hi: real, code: nat)

  datatype CellClass = Coded(code: nat) | Unclassified

  /** The code carried forward as a violation (`"gridcode" = 1`). */
  const ViolationCode: nat := 1

  predicate IsViolation(c: CellClass)
  {
    c == Coded(ViolationCode)
  }

  /** v lies below the cut between two adjacent ranges: strictly below it, or
      on it when the lower range owns the shared endpoint. */
  predicate BelowCut(own: Ownership, cut: real, v: real)
  {
    v < cut || (own == UpperInclusive && v == cut)
  }

  /** v lies in an inner range from lo to hi, whose two ends are both shared
      with a neighbour, so the ownership closes exactly one of them. */
  predicate Within(own: Ownership, lo: real, hi: real, v: real)
  {
    !BelowCut(own, lo, v) && BelowCut(own, hi, v)
  }

  /** v lies in range i of the list. An end shared with a neighbouring range
      is closed as the ownership says; the outer ends of the first and the
      last range are always closed, so together the ranges cover the whole
      span from the first lower bound to the last upper bound. */
  predicate InBandAt(own: Ownership, bands: seq<Band>, i: nat, v: real)
    requires i < |bands|
  {
    && (if i == 0 then bands[i].lo <= v else !BelowCut(own, bands[i].lo, v))
    && (if i == |bands| - 1 then v <= bands[i].hi else BelowCut(own, bands[i].hi, v))
  }

  /** Ranges listed in increasing order, none overlapping the next. */
  predicate Ascending(bands: seq<Band>)
  {
    forall i, j :: 0 <= i < j < |bands| ==> bands[i].hi <= bands[j].lo
  }

  /** The search from range i on: the first of those ranges containing v decides its code. */
  function ReclassifyFrom(own: Ownership, bands: seq<Band>, v: real, i: nat): (c: CellClass)
    requires i <= |bands|
    ensures c.Unclassified? <==> forall j :: i <= j < |bands| ==> !InBandAt(own, bands, j, v)
    ensures c.Coded? ==> exists j :: i <= j < |bands| && InBandAt(own, bands, j, v) && c.code == bands[j].code
    decreases |bands| - i
  {
    if i == |bands| then Unclassified
    else if InBandAt(own, bands, i, v) then Coded(bands[i].code)
    else ReclassifyFrom(own, bands, v, i + 1)
  }

  /** The first listed range containing v decides its code; a value no range
      contains is left unclassified. */
  function Reclassify(own: Ownership, bands: seq<Band>, v: real): (c: CellClass)
    ensures c.Unclassified? <==> forall i :: 0 <= i < |bands| ==> !InBandAt(own, bands, i, v)
    ensures c.Coded? ==> exists i :: 0 <= i < |bands| && InBandAt(own, bands, i, v) && c.code == bands[i].code
  {
    ReclassifyFrom(own, bands, v, 0)
  }

  /** With ascending ranges at most one range contains a value, so the first
      match is the only match: the order the engine tries the ranges in does not matter. */
  lemma AscendingUniqueMatch(own: Ownership, bands: seq<Band>, v: real, i: nat)
    requires Ascending(bands)
    requires i < |bands| && InBandAt(own, bands, i, v)
    ensures Reclassify(own, bands, v) == Coded(bands[i].code)
  {
    UniqueMatchFrom(own, bands, v, i, 0);
  }

  lemma {:induction false} UniqueMatchFrom(own: Ownership, bands: seq<Band>, v: real, i: nat, k: nat)
    requires Ascending(bands)
    requires i < |bands| && InBandAt(own, bands, i, v)
    requires k <= i
    ensures ReclassifyFrom(own, bands, v, k) == Coded(bands[i].code)
    decreases i - k
  {
    if k < i {
      assert !InBandAt(own, bands, k, v) by {
        assert bands[k].hi <= bands[i].lo;
      }
      UniqueMatchFrom(own, bands, v, i, k + 1);
    }
  }

  // ---------------------------------------------------------------------
  // The two remaps of the tools

  /** `[[-1,0.95,1],[0.95,1.05,0],[1.05,10,1]]`: adjacent tiers are one foot
      apart, so a difference near 1 passes and anything else in range is flagged. */
  const FvaBands: seq<Band> := [Band(-1.0, 0.95, 1), Band(0.95, 1.05, 0), Band(1.05, 10.0, 1)]

  /** `[[-10,0,1],[0,10,0]]`: the sign test of version 1.5's 0.2 percent compare. */
  const SignBands: seq<Band> := [Band(-10.0, 0.0, 1), Band(0.0, 10.0, 0)]

  lemma FvaBandsAscending()
    ensures Ascending(FvaBands)
  {
  }

  lemma SignBandsAscending()
    ensures Ascending(SignBands)
  {
  }

  /** The FVA remap applied to one difference. */
  function ClassifyFva(own: Ownership, d: real): CellClass
  {
    Reclassify(own, FvaBands, d)
  }

  /** Version 1.5's sign remap applied to one difference. */
  function ClassifySign(own: Ownership, d: real): CellClass
  {
    Reclassify(own, SignBands, d)
  }

  /** The FVA remap: a difference in the band around one foot passes, any
      other difference from -1 to 10 is a violation, and one outside [-1, 10]
      matches no range; only at 0.95 and 1.05 does the ownership decide. */
  lemma FvaRemap(own: Ownership, d: real)
    ensures ClassifyFva(own, d) == Coded(0) <==> Within(own, 0.95, 1.05, d)
    ensures IsViolation(ClassifyFva(own, d)) <==> -1.0 <= d <= 10.0 && !Within(own, 0.95, 1.05, d)
    ensures ClassifyFva(own, d).Unclassified? <==> d < -1.0 || 10.0 < d
  {
    FvaBandsAscending();
    if InBandAt(own, FvaBands, 0, d) {
      AscendingUniqueMatch(own, FvaBands, d, 0);
    } else if InBandAt(own, FvaBands, 1, d) {
      AscendingUniqueMatch(own, FvaBands, d, 1);
    } else if InBandAt(own, FvaBands, 2, d) {
      AscendingUniqueMatch(own, FvaBands, d, 2);
    }
  }

  /** The sign remap: a difference below zero is a violation and one above
      zero passes, within ten feet either way; only at 0 does the ownership decide. */
  lemma SignRemap(own: Ownership, d: real)
    ensures ClassifySign(own, d) == Coded(0) <==> !BelowCut(own, 0.0, d) && d <= 10.0
    ensures IsViolation(ClassifySign(own, d)) <==> -10.0 <= d && BelowCut(own, 0.0, d)
    ensures ClassifySign(own, d).Unclassified? <==> d < -10.0 || 10.0 < d
  {
    SignBandsAscending();
    if InBandAt(own, SignBands, 0, d) {
      AscendingUniqueMatch(own, SignBands, d, 0);
    } else if InBandAt(own, SignBands, 1, d) {
      AscendingUniqueMatch(own, SignBands, d, 1);
    }
  }

  /** Equal cells in two adjacent tiers are flagged, whichever way the engine
      closes its ranges: the pass band is around one foot, not around zero. */
  lemma EqualCellsAreFlagged(own: Ownership)
    ensures IsViolation(ClassifyFva(own, 0.0))
  {
    FvaRemap(own, 0.0);
  }

  /** Away from 0.95 and 1.05 the FVA classification does not depend on ownership. */
  lemma FvaOwnershipOnlyAtEndpoints(d: real)
    requires d != 0.95 && d != 1.05
    ensures ClassifyFva(LowerInclusive, d) == ClassifyFva(UpperInclusive, d)
  {
    FvaRemap(LowerInclusive, d);
    FvaRemap(UpperInclusive, d);
  }

  /** Away from 0 the sign classification does not depend on ownership. */
  lemma SignOwnershipOnlyAtEndpoints(d: real)
    requires d != 0.0
    ensures ClassifySign(LowerInclusive, d) == ClassifySign(UpperInclusive, d)
  {
    SignRemap(LowerInclusive, d);
    SignRemap(UpperInclusive, d);
  }

  /** At the shared endpoints the two ownerships really do differ; at the
      outer ends -1 and 10 they agree, and both are flagged. */
  lemma FvaEndpointsDependOnOwnership()
    ensures ClassifyFva(LowerInclusive, 0.95) == Coded(0) && ClassifyFva(UpperInclusive, 0.95) == Coded(1)
    ensures ClassifyFva(LowerInclusive, 1.05) == Coded(1) && ClassifyFva(UpperInclusive, 1.05) == Coded(0)
    ensures ClassifyFva(LowerInclusive, 10.0) == Coded(1) && ClassifyFva(UpperInclusive, 10.0) == Coded(1)
    ensures ClassifyFva(LowerInclusive, -1.0) == Coded(1) && ClassifyFva(UpperInclusive, -1.0) == Coded(1)
  {
    FvaRemap(LowerInclusive, 0.95);
    FvaRemap(UpperInclusive, 0.95);
    FvaRemap(LowerInclusive, 1.05);
    FvaRemap(UpperInclusive, 1.05);
    FvaRemap(LowerInclusive, 10.0);
    FvaRemap(UpperInclusive, 10.0);
    FvaRemap(LowerInclusive, -1.0);
    FvaRemap(UpperInclusive, -1.0);
  }
}

=== FILE: report.dfy ===
/** The QC report: each raster's property list is extended with the
    comparison fields, and `generate_csv` / `generate_csv_wo02` write one CSV
    row per position of the header list, the QC-code list and the extended
    property lists taken together by `zip`, which stops at the shortest. */
module Report {
  import opened Wrappers
  import opened Text
  import opened Artifacts

  // ---------------------------------------------------------------------
  // zip

  /** The length of the shortest column (zero columns give zero rows). */
  function MinLen(cols: seq<seq<String>>): (m: nat)
    ensures forall j :: 0 <= j < |cols| ==> m <= |cols[j]|
    ensures |cols| > 0 ==> exists j :: 0 <= j < |cols| && m == |cols[j]|
    ensures |cols| == 0 ==> m == 0
  {
    if |cols| == 0 then 0
    else if |cols| == 1 then |cols[0]|
    else
      var m := MinLen(cols[1..]);
      assert forall j :: 1 <= j < |cols| ==> cols[j] == cols[1..][j - 1];
      if |cols[0]| <= m then |cols[0]| else m
  }

  function Heads(cols: seq<seq<String>>): (h: seq<String>)
    requires forall j :: 0 <= j < |cols| ==> |cols[j]| > 0
    ensures |h| == |cols| && forall j :: 0 <= j < |cols| ==> h[j] == cols[j][0]
  {
    seq(|cols|, j requires 0 <= j < |cols| => cols[j][0])
  }

  function Tails(cols: seq<seq<String>>): (t: seq<seq<String>>)
    requires forall j :: 0 <= j < |cols| ==> |cols[j]| > 0
    ensures |t| == |cols| && forall j :: 0 <= j < |cols| ==> t[j] == cols[j][1..]
  {
    seq(|cols|, j requires 0 <= j < |cols| => cols[j][1..])
  }

  /** Dropping the first entry of every column shortens the shortest by one. */
  lemma MinLenTails(cols: seq<seq<String>>)
    requires |cols| > 0 && forall j :: 0 <= j < |cols| ==> |cols[j]| > 0
    ensures MinLen(Tails(cols)) == MinLen(cols) - 1
  {
    var t := Tails(cols);
    var j :| 0 <= j < |cols| && MinLen(cols) == |cols[j]|;
    var j2 :| 0 <= j2 < |t| && MinLen(t) == |t[j2]|;
    assert MinLen(t) <= |t[j]|;
    assert MinLen(cols) <= |cols[j2]|;
  }

  /** Python's `zip(*cols)`: row k holds the k-th entry of every column, and
      there are as many rows as the shortest column has entries. */
  function Zip(cols: seq<seq<String>>): (rows: seq<seq<String>>)
    ensures |rows| == MinLen(cols)
    ensures forall k :: 0 <= k < |rows| ==> |rows[k]| == |cols|
    ensures forall k, j :: 0 <= k < |rows| && 0 <= j < |cols| ==> rows[k][j] == cols[j][k]
    decreases if |cols| == 0 then 0 else |cols[0]|
  {
    if |cols| == 0 || MinLen(cols) == 0 then []
    else
      MinLenTails(cols);
      var rest := Zip(Tails(cols));
      PrependHeads(cols, rest);
      [Heads(cols)] + rest
  }

  /** The first row of a zip followed by the zip of the tails is the zip. */
  lemma PrependHeads(cols: seq<seq<String>>, rest: seq<seq<String>>)
    requires |cols| > 0 && MinLen(cols) > 0
    requires forall j :: 0 <= j < |cols| ==> |cols[j]| > 0
    requires |rest| == MinLen(cols) - 1
    requires forall k :: 0 <= k < |rest| ==> |rest[k]| == |cols|
    requires forall k, j :: 0 <= k < |rest| && 0 <= j < |cols| ==> rest[k][j] == Tails(cols)[j][k]
    ensures var rows := [Heads(cols)] + rest;
            (forall k :: 0 <= k < |rows| ==> |rows[k]| == |cols|)
            && (forall k, j :: 0 <= k < |rows| && 0 <= j < |cols| ==> rows[k][j] == cols[j][k])
  {
    var rows := [Heads(cols)] + rest;
    forall k, j | 0 <= k < |rows| && 0 <= j < |cols|
      ensures rows[k][j] == cols[j][k]
    {
      if k > 0 {
        assert rows[k] == rest[k - 1];
        assert Tails(cols)[j] == cols[j][1..];
      }
    }
  }

  // ---------------------------------------------------------------------
  // The lists of the two versions

  const Header15: seq<String> := [
    "Name", "Pixel_Type", "Cell_Size", "Spatial_Reference", "Vertical_Datum", "Vertical_Unit",
    "", "", "3 FVA rasters extents compare", "3 FVA rasters cells value compare", "pbl(still developing)"]

  /** Version 1.5's QC codes as written: one empty entry short of the header. */
  const QcList15AsWritten: seq<String> := ["R3", "R4", "R6", "R7", "R8", "R8", "", "R11", "R14", "R17"]

  /** `generate_csv_wo02`'s list as written: `'R8' ''` with no comma between
      them is one literal, `"R8" + ""`. */
  const QcList15Wo02AsWritten: seq<String> := ["R3", "R4", "R6", "R7", "R8", "R8" + "", "", "R11", "R14", "R17"]

  /** Version 1.5's QC codes as evidently intended: the missing comma of
      `generate_csv_wo02` restored, one code per header entry. */
  const QcList15: seq<String> := ["R3", "R4", "R6", "R7", "R8", "R8", "", "", "R11", "R14", "R17"]

  const Header13: seq<String> := [
    "Name", "Pixel_Type", "Cell_Size", "Spatial_Reference", "Vertical_Datum",
    "", "", "3 FVA rasters extents compare", "3 FVA rasters cells value compare", "pbl(still developing)"]

  const QcList13: seq<String> := ["R3", "R4", "R6", "R7", "R8", "", "", "R11", "R14", "R17"]

  /** The labels of the three tier pairs, lowest first. */
  const PairLabels: seq<String> := ["01FVA vs 00FVA", "02FVA vs 01FVA", "03FVA vs 02FVA"]

  const PctPairLabel: String := "02PCT vs 00FVA"

  /** The column-title line written before the rows. */
  function TitleLine(withPct: bool): String
  {
    "AttributeName,QC checklist item,FVA0 Raster properties, FVA1 Raster properties, FVA2 Raster properties, FVA3 Raster properties"
    + (if withPct then ", 0.2PCT Raster properties" else "")
  }

  // ---------------------------------------------------------------------
  // Row assembly

  /** The statuses the comparisons produced: one extent and one cell status
      per tier pair, and the 0.2 percent pair's two when that raster is present. */
  datatype Statuses = Statuses(extent: seq<String>, cell: seq<String>, pct: Option<(String, String)>)

  predicate WellFormed(st: Statuses)
  {
    |st.extent| == |PairLabels| && |st.cell| == |PairLabels|
  }

  /** The five comparison fields appended to one property list. */
  function Extension(pair: String, extent: String, cell: String, last: String): seq<String>
  {
    ["", pair, extent, cell, last]
  }

  /** The extended property lists, FVA0 to FVA3 and then the 0.2 percent raster
      when present: each tier pair's fields go on its lower tier, ending in
      `"TBD"`; FVA3 gets empty fields; the 0.2 percent raster gets its pair's
      fields ending in an empty one. `meta` holds the property lists that
      `getRasterProperties` read, in the same order. */
  function PropertyColumns(meta: seq<seq<String>>, st: Statuses): (cols: seq<seq<String>>)
    requires WellFormed(st)
    requires |meta| == if st.pct.Some? then 5 else 4
    ensures |cols| == |meta|
    ensures forall i :: 0 <= i < |cols| ==> |cols[i]| == |meta[i]| + 5 && cols[i][..|meta[i]|] == meta[i]
    ensures forall i :: 0 <= i < |PairLabels| ==>
              cols[i][|meta[i]| + 1] == PairLabels[i] && cols[i][|meta[i]| + 2] == st.extent[i]
              && cols[i][|meta[i]| + 3] == st.cell[i] && cols[i][|meta[i]| + 4] == "TBD"
    ensures st.pct.Some? ==>
              cols[4][|meta[4]| + 1] == PctPairLabel && cols[4][|meta[4]| + 2] == st.pct.value.0
              && cols[4][|meta[4]| + 3] == st.pct.value.1 && cols[4][|meta[4]| + 4] == ""
    ensures forall j :: |meta[3]| <= j < |cols[3]| ==> cols[3][j] == ""
    ensures forall i :: 0 <= i < |cols| ==> cols[i][|meta[i]|] == ""
  {
    var fva := seq(3, i requires 0 <= i < 3 => meta[i] + Extension(PairLabels[i], st.extent[i], st.cell[i], "TBD"));
    var top := meta[3] + Extension("", "", "", "");
    match st.pct
    case None => fva + [top]
    case Some(p) => fva + [top, meta[4] + Extension(PctPairLabel, p.0, p.1, "")]
  }

  /** The rows a version writes: `zip` of the header, the QC codes and the
      extended property lists. */
  function ReportRows(header: seq<String>, qc: seq<String>, meta: seq<seq<String>>, st: Statuses): seq<seq<String>>
    requires WellFormed(st)
    requires |meta| == if st.pct.Some? then 5 else 4
  {
    Zip([header, qc] + PropertyColumns(meta, st))
  }

  /** Every property list of version 1.5 has six entries, of version 1.3 five. */
  predicate MetaWidth(meta: seq<seq<String>>, width: nat)
  {
    forall i :: 0 <= i < |meta| ==> |meta[i]| == width
  }

  function Min(a: nat, b: nat): nat
  {
    if a <= b then a else b
  }

  /** The shortest of two lists and some columns of length n. */
  lemma MinLenTwoAndColumns(a: seq<String>, b: seq<String>, props: seq<seq<String>>, n: nat)
    requires |props| > 0
    requires forall i :: 0 <= i < |props| ==> |props[i]| == n
    ensures MinLen([a, b] + props) == Min(Min(|a|, |b|), n)
  {
    var cols := [a, b] + props;
    assert cols[0] == a && cols[1] == b && cols[2] == props[0];
    var j :| 0 <= j < |cols| && MinLen(cols) == |cols[j]|;
    if j >= 2 {
      assert cols[j] == props[j - 2];
    }
    assert MinLen(cols) <= |cols[0]| && MinLen(cols) <= |cols[1]| && MinLen(cols) <= |cols[2]|;
  }

  /** Row k of a zip starting with two lists begins with their k-th entries. */
  lemma ZipFirstTwo(a: seq<String>, b: seq<String>, props: seq<seq<String>>)
    ensures |Zip([a, b] + props)| <= |a| && |Zip([a, b] + props)| <= |b|
    ensures var rows := Zip([a, b] + props);
            forall k :: 0 <= k < |rows| ==> |rows[k]| == 2 + |props| && rows[k][0] == a[k] && rows[k][1] == b[k]
  {
    var cols := [a, b] + props;
    var rows := Zip(cols);
    assert cols[0] == a && cols[1] == b;
    forall k | 0 <= k < |rows|
      ensures |rows[k]| == 2 + |props| && rows[k][0] == a[k] && rows[k][1] == b[k]
    {
      assert rows[k][0] == cols[0][k] && rows[k][1] == cols[1][k];
    }
  }

  /** Field 2 + i of row k of such a zip is the k-th entry of column i. */
  lemma ZipColumns(a: seq<String>, b: seq<String>, props: seq<seq<String>>)
    ensures forall i :: 0 <= i < |props| ==> |Zip([a, b] + props)| <= |props[i]|
    ensures var rows := Zip([a, b] + props);
            forall k, i :: 0 <= k < |rows| && 0 <= i < |props| ==> rows[k][2 + i] == props[i][k]
  {
    var cols := [a, b] + props;
    assert forall i :: 0 <= i < |props| ==> cols[2 + i] == props[i];
    ZipShifted(cols, props, 2);
  }

  /** The columns from position d on are `props`, so field d + i of each row
      comes from column i of `props`. */
  lemma ZipShifted(cols: seq<seq<String>>, props: seq<seq<String>>, d: nat)
    requires |cols| == d + |props|
    requires forall i :: 0 <= i < |props| ==> cols[d + i] == props[i]
    ensures forall i :: 0 <= i < |props| ==> |Zip(cols)| <= |props[i]|
    ensures var rows := Zip(cols);
            forall k, i :: 0 <= k < |rows| && 0 <= i < |props| ==> rows[k][d + i] == props[i][k]
  {
    var rows := Zip(cols);
    forall k, i | 0 <= k < |rows| && 0 <= i < |props|
      ensures rows[k][d + i] == props[i][k]
    {
      assert rows[k][d + i] == cols[d + i][k];
    }
  }

  /** `zip` of two lists and some equally long columns. */
  lemma ZipTwoAndColumns(a: seq<String>, b: seq<String>, props: seq<seq<String>>, n: nat)
    requires |props| > 0
    requires forall i :: 0 <= i < |props| ==> |props[i]| == n
    ensures var rows := Zip([a, b] + props);
            |rows| == Min(Min(|a|, |b|), n)
            && (forall k :: 0 <= k < |rows| ==> |rows[k]| == 2 + |props| && rows[k][0] == a[k] && rows[k][1] == b[k])
            && (forall k, i :: 0 <= k < |rows| && 0 <= i < |props| ==> rows[k][2 + i] == props[i][k])
  {
    MinLenTwoAndColumns(a, b, props, n);
    ZipFirstTwo(a, b, props);
    ZipColumns(a, b, props);
  }

  /** The layout of the written rows: as many as the shortest of the header,
      the QC codes and the extended property lists; row k holds the k-th
      header, the k-th QC code and the k-th field of every property list. */
  lemma ReportLayout(header: seq<String>, qc: seq<String>, meta: seq<seq<String>>, st: Statuses, width: nat)
    requires WellFormed(st)
    requires |meta| == if st.pct.Some? then 5 else 4
    requires MetaWidth(meta, width)
    ensures var rows := ReportRows(header, qc, meta, st);
            var props := PropertyColumns(meta, st);
            |rows| == Min(Min(|header|, |qc|), width + 5)
            && (forall k :: 0 <= k < |rows| ==> |rows[k]| == 2 + |meta| && rows[k][0] == header[k] && rows[k][1] == qc[k])
            && (forall k, i :: 0 <= k < |rows| && 0 <= i < |meta| ==> rows[k][2 + i] == props[i][k])
  {
    var props := PropertyColumns(meta, st);
    assert forall i :: 0 <= i < |props| ==> |props[i]| == width + 5;
    ZipTwoAndColumns(header, qc, props, width + 5);
  }

  // ---------------------------------------------------------------------
  // What each version writes

  /** Version 1.3 writes ten rows, all of them: the last field of every
      extended property list (`"TBD"`) is written. Row k pairs the k-th
      header with the k-th QC code, and the extent and cell rows carry the statuses. */
  lemma Report13Rows(meta: seq<seq<String>>, st: Statuses)
    requires WellFormed(st)
    requires |meta| == if st.pct.Some? then 5 else 4
    requires MetaWidth(meta, 5)
    ensures var rows := ReportRows(Header13, QcList13, meta, st);
            |rows| == 10
            && (forall k :: 0 <= k < 10 ==> rows[k][0] == Header13[k] && rows[k][1] == QcList13[k])
            && (forall i :: 0 <= i < 3 ==> rows[7][2 + i] == st.extent[i] && rows[8][2 + i] == st.cell[i]
                                           && rows[9][2 + i] == "TBD")
  {
    ReportLayout(Header13, QcList13, meta, st, 5);
    var rows := ReportRows(Header13, QcList13, meta, st);
    var props := PropertyColumns(meta, st);
    assert |rows| == 10;
    forall i | 0 <= i < 3
      ensures rows[7][2 + i] == st.extent[i] && rows[8][2 + i] == st.cell[i] && rows[9][2 + i] == "TBD"
    {
      assert |meta[i]| == 5;
      assert props[i][7] == st.extent[i] && props[i][8] == st.cell[i] && props[i][9] == "TBD";
      assert rows[7][2 + i] == props[i][7] && rows[8][2 + i] == props[i][8] && rows[9][2 + i] == props[i][9];
    }
  }

  /** Version 1.5 as written writes only ten rows, as many as its QC codes:
      the eleventh field of every eleven-field property list is dropped. */
  lemma Report15AsWrittenRows(meta: seq<seq<String>>, st: Statuses)
    requires WellFormed(st)
    requires |meta| == if st.pct.Some? then 5 else 4
    requires MetaWidth(meta, 6)
    ensures |ReportRows(Header15, QcList15AsWritten, meta, st)| == 10
    ensures forall i :: 0 <= i < |meta| ==> |PropertyColumns(meta, st)[i]| == 11
    ensures forall i :: 0 <= i < 3 ==> PropertyColumns(meta, st)[i][10] == "TBD"
  {
    ReportLayout(Header15, QcList15AsWritten, meta, st, 6);
    assert forall i :: 0 <= i < 3 ==> |meta[i]| == 6;
  }

  /** Both of version 1.5's lists are the same ten codes. */
  lemma Wo02ListIsTheSame()
    ensures QcList15Wo02AsWritten == QcList15AsWritten
  {
    assert "R8" + "" == "R8";
  }

  /** Version 1.5's header is version 1.3's with `Vertical_Unit` inserted
      after `Vertical_Datum`; the intended codes insert `R8` at the same
      place, but the codes as written insert it and drop one empty code. */
  lemma Lists15AgainstLists13()
    ensures Header15 == Header13[..5] + ["Vertical_Unit"] + Header13[5..]
    ensures QcList15 == QcList13[..5] + ["R8"] + QcList13[5..]
    ensures QcList15AsWritten == QcList13[..5] + ["R8"] + QcList13[6..]
  {
  }

  /** The QC codes as written sit one row too early from the eighth row on:
      the row of extent statuses is labelled R14 where version 1.3 labels
      the same header R11, and the row of cell statuses R17 where version 1.3
      has R14. */
  lemma Report15AsWrittenMisaligned(meta: seq<seq<String>>, st: Statuses)
    requires WellFormed(st)
    requires |meta| == if st.pct.Some? then 5 else 4
    requires MetaWidth(meta, 6)
    ensures |ReportRows(Header15, QcList15AsWritten, meta, st)| == 10
    ensures forall k :: 0 <= k < 10 ==> |ReportRows(Header15, QcList15AsWritten, meta, st)[k]| == 2 + |meta|
    ensures var rows := ReportRows(Header15, QcList15AsWritten, meta, st);
            rows[8][0] == Header13[7] && rows[8][2] == st.extent[0] && rows[8][1] == "R14" && QcList13[7] == "R11"
            && rows[9][0] == Header13[8] && rows[9][2] == st.cell[0] && rows[9][1] == "R17" && QcList13[8] == "R14"
            && rows[8][1] != QcList13[7] && rows[9][1] != QcList13[8]
  {
    ReportLayout(Header15, QcList15AsWritten, meta, st, 6);
    assert |meta[0]| == 6;
    assert "R14"[2] != "R11"[2] && "R17"[2] != "R14"[2];
  }

  /** With the intended codes version 1.5 writes eleven rows, each pairing
      its header with the code version 1.3 gives that header (R8 for the new
      `Vertical_Unit`), and the `"TBD"` row is written. */
  lemma Report15Rows(meta: seq<seq<String>>, st: Statuses)
    requires WellFormed(st)
    requires |meta| == if st.pct.Some? then 5 else 4
    requires MetaWidth(meta, 6)
    ensures var rows := ReportRows(Header15, QcList15, meta, st);
            |rows| == 11
            && (forall k :: 0 <= k < 11 ==> |rows[k]| == 2 + |meta| && rows[k][0] == Header15[k] && rows[k][1] == QcList15[k])
            && (forall k :: 6 <= k < 11 ==> rows[k][0] == Header13[k - 1] && rows[k][1] == QcList13[k - 1])
            && (forall i :: 0 <= i < 3 ==> rows[8][2 + i] == st.extent[i] && rows[9][2 + i] == st.cell[i]
                                           && rows[10][2 + i] == "TBD")
  {
    Report15RowHeads(meta, st);
    Lists15ShiftedBy13();
    forall i | 0 <= i < 3
      ensures ReportRows(Header15, QcList15, meta, st)[8][2 + i] == st.extent[i]
      ensures ReportRows(Header15, QcList15, meta, st)[9][2 + i] == st.cell[i]
      ensures ReportRows(Header15, QcList15, meta, st)[10][2 + i] == "TBD"
    {
      Report15StatusCells(meta, st, i);
    }
  }

  /** The first two fields of version 1.5's rows (intended codes). */
  lemma Report15RowHeads(meta: seq<seq<String>>, st: Statuses)
    requires WellFormed(st)
    requires |meta| == if st.pct.Some? then 5 else 4
    requires MetaWidth(meta, 6)
    ensures var rows := ReportRows(Header15, QcList15, meta, st);
            |rows| == 11
            && (forall k :: 0 <= k < 11 ==> |rows[k]| == 2 + |meta| && rows[k][0] == Header15[k] && rows[k][1] == QcList15[k])
  {
    ReportLayout(Header15, QcList15, meta, st, 6);
  }

  /** From `Vertical_Unit` on, version 1.5's header and intended codes are
      version 1.3's, one position later. */
  lemma Lists15ShiftedBy13()
    ensures forall k :: 6 <= k < 11 ==> Header15[k] == Header13[k - 1] && QcList15[k] == QcList13[k - 1]
  {
    Lists15AgainstLists13();
  }

  /** The extent, cell and `"TBD"` rows of version 1.5's report at the column of tier pair i. */
  lemma Report15StatusCells(meta: seq<seq<String>>, st: Statuses, i: nat)
    requires WellFormed(st)
    requires |meta| == if st.pct.Some? then 5 else 4
    requires MetaWidth(meta, 6)
    requires i < 3
    ensures var rows := ReportRows(Header15, QcList15, meta, st);
            |rows| == 11 && |rows[8]| == 2 + |meta| && |rows[9]| == 2 + |meta| && |rows[10]| == 2 + |meta|
            && rows[8][2 + i] == st.extent[i] && rows[9][2 + i] == st.cell[i] && rows[10][2 + i] == "TBD"
  {
    ReportLayout(Header15, QcList15, meta, st, 6);
    var props := PropertyColumns(meta, st);
    assert |meta[i]| == 6;
    assert props[i][8] == st.extent[i] && props[i][9] == st.cell[i] && props[i][10] == "TBD";
  }

  /** With the 0.2 percent raster present its column carries that pair's
      label and two statuses (version 1.5, intended codes). */
  lemma Report15PctColumn(meta: seq<seq<String>>, st: Statuses)
    requires WellFormed(st) && st.pct.Some?
    requires |meta| == 5
    requires MetaWidth(meta, 6)
    ensures var rows := ReportRows(Header15, QcList15, meta, st);
            |rows[8]| == 7 && rows[7][6] == PctPairLabel && rows[8][6] == st.pct.value.0 && rows[9][6] == st.pct.value.1
  {
    ReportLayout(Header15, QcList15, meta, st, 6);
    assert |meta[4]| == 6;
  }

  /** The extent and cell rows of version 1.5's report as written, at the
      column of tier pair i: the ninth and tenth of its ten rows. */
  lemma Report15AsWrittenStatusCells(meta: seq<seq<String>>, st: Statuses, i: nat)
    requires WellFormed(st)
    requires |meta| == if st.pct.Some? then 5 else 4
    requires MetaWidth(meta, 6)
    requires i < 3
    ensures var rows := ReportRows(Header15, QcList15AsWritten, meta, st);
            |rows| == 10 && |rows[8]| == 2 + |meta| && |rows[9]| == 2 + |meta|
            && rows[8][1] == "R14" && rows[9][1] == "R17"
            && rows[8][2 + i] == st.extent[i] && rows[9][2 + i] == st.cell[i]
  {
    ReportLayout(Header15, QcList15AsWritten, meta, st, 6);
    var props := PropertyColumns(meta, st);
    assert |meta[i]| == 6;
    assert props[i][8] == st.extent[i] && props[i][9] == st.cell[i];
  }

  /** With the 0.2 percent raster present its column of the report as
      written carries that pair's two statuses. */
  lemma Report15AsWrittenPctColumn(meta: seq<seq<String>>, st: Statuses)
    requires WellFormed(st) && st.pct.Some?
    requires |meta| == 5
    requires MetaWidth(meta, 6)
    ensures var rows := ReportRows(Header15, QcList15AsWritten, meta, st);
            |rows[8]| == 7 && rows[7][6] == PctPairLabel && rows[8][6] == st.pct.value.0 && rows[9][6] == st.pct.value.1
  {
    ReportLayout(Header15, QcList15AsWritten, meta, st, 6);
    assert |meta[4]| == 6;
  }
}

=== FILE: resolver.dfy ===
/** Finding the five input rasters of a run in a folder listing (version 1.5).
    Every `.tif` name is matched, in listing order, against the five tokens
    `00FVA`, `01FVA`, `02FVA`, `03FVA` and `0_2PCT`; a token matched by two
    names stops the run, and so does a missing tier raster. The 0.2 percent
    raster is optional. */
module Resolver {
  import opened Wrappers
  import opened Text

  /** The five entries of the detection dictionary. */
  datatype Slot = Fva00 | Fva01 | Fva02 | Fva03 | Pct02

  function Token(k: Slot): String
  {
    match k
    case Fva00 => "00FVA"
    case Fva01 => "01FVA"
    case Fva02 => "02FVA"
    case Fva03 => "03FVA"
    case Pct02 => "0_2PCT"
  }

  /** The dictionary's keys, in the order the loop visits them. */
  const Slots: seq<Slot> := [Fva00, Fva01, Fva02, Fva03, Pct02]

  /** The four freeboard tiers must be found; the 0.2 percent raster may be absent. */
  predicate Required(k: Slot)
  {
    k != Pct02
  }

  lemma SlotsComplete(k: Slot)
    ensures k in Slots
  {
  }

  lemma SlotsDistinct()
    ensures forall i, j :: 0 <= i < j < |Slots| ==> Slots[i] != Slots[j]
  {
  }

  /** Name f is a candidate for slot k: a `.tif` file whose name contains the token. */
  predicate Hit(f: String, k: Slot)
  {
    EndsWith(f, ".tif") && Contains(f, Token(k))
  }

  /** The detection state: the names bound so far and the `execution_allowed` flag. */
  datatype Scan = Scan(bound: map<Slot, String>, allowed: bool)

  const Start: Scan := Scan(map[], true)

  /** One pass of the inner loop over the keys for file f. A token already
      bound clears the flag and breaks out of the inner loop. */
  function Visit(st: Scan, f: String, keys: seq<Slot>): Scan
    decreases |keys|
  {
    if keys == [] then st
    else if Contains(f, Token(keys[0])) then
      if keys[0] in st.bound then st.(allowed := false)
      else Visit(st.(bound := st.bound[keys[0] := f]), f, keys[1..])
    else Visit(st, f, keys[1..])
  }

  /** The outer loop over the listing; names that do not end in `.tif` are filtered out first. */
  function ScanFiles(names: seq<String>): Scan
    decreases |names|
  {
    if names == [] then Start
    else
      var st := ScanFiles(names[..|names| - 1]);
      var f := names[|names| - 1];
      if EndsWith(f, ".tif") then Visit(st, f, Slots) else st
  }

  // ---------------------------------------------------------------------
  // What the scan computes, stated without the loop

  /** No token is matched by two different positions of the listing. */
  ghost predicate DuplicateFree(names: seq<String>)
  {
    forall i, j, k :: 0 <= i < j < |names| ==> !(Hit(names[i], k) && Hit(names[j], k))
  }

  /** Position i holds the first name of the listing that is a candidate for slot k. */
  ghost predicate FirstHit(names: seq<String>, k: Slot, i: int)
  {
    0 <= i < |names| && Hit(names[i], k) && forall j :: 0 <= j < i ==> !Hit(names[j], k)
  }

  ghost predicate AnyHit(names: seq<String>, k: Slot)
  {
    exists i :: 0 <= i < |names| && Hit(names[i], k)
  }

  /** Binding slot k to f is what the inner loop does when it meets the token. */
  lemma {:induction false} VisitBinds(st: Scan, f: String, keys: seq<Slot>)
    ensures Visit(st, f, keys).allowed ==> st.allowed
    ensures forall k :: k in Visit(st, f, keys).bound ==>
              k in st.bound || (k in keys && Contains(f, Token(k)) && Visit(st, f, keys).bound[k] == f)
    ensures forall k :: k in st.bound ==> k in Visit(st, f, keys).bound && Visit(st, f, keys).bound[k] == st.bound[k]
    decreases |keys|
  {
    if keys != [] {
      if Contains(f, Token(keys[0])) {
        if keys[0] !in st.bound {
          VisitBinds(st.(bound := st.bound[keys[0] := f]), f, keys[1..]);
        }
      } else {
        VisitBinds(st, f, keys[1..]);
      }
    }
  }

  /** From an allowed state, one file keeps the flag exactly when none of its
      tokens is bound already, and then binds every token it contains. */
  lemma {:induction false} VisitSpec(st: Scan, f: String, keys: seq<Slot>)
    requires st.allowed
    requires forall i, j :: 0 <= i < j < |keys| ==> keys[i] != keys[j]
    ensures Visit(st, f, keys).allowed <==> forall k :: k in keys && Contains(f, Token(k)) ==> k !in st.bound
    ensures Visit(st, f, keys).allowed ==>
              forall k :: (k in Visit(st, f, keys).bound <==> k in st.bound || (k in keys && Contains(f, Token(k))))
    decreases |keys|
  {
    if keys != [] {
      var k0 := keys[0];
      assert forall k :: k in keys <==> k == k0 || k in keys[1..];
      assert k0 !in keys[1..] by {
        forall i | 0 <= i < |keys[1..]| ensures keys[1..][i] != k0 {
          assert keys[1..][i] == keys[i + 1];
        }
      }
      if Contains(f, Token(k0)) {
        if k0 !in st.bound {
          var st' := st.(bound := st.bound[k0 := f]);
          VisitSpec(st', f, keys[1..]);
        }
      } else {
        VisitSpec(st, f, keys[1..]);
      }
    }
  }

  /** Every bound name is a `.tif` name of the listing containing its slot's token. */
  lemma {:induction false} ScanBindsHits(names: seq<String>)
    ensures forall k :: k in ScanFiles(names).bound ==>
              ScanFiles(names).bound[k] in names && Hit(ScanFiles(names).bound[k], k)
    decreases |names|
  {
    if names != [] {
      var prefix := names[..|names| - 1];
      var f := names[|names| - 1];
      ScanBindsHits(prefix);
      assert forall g :: g in prefix ==> g in names;
      if EndsWith(f, ".tif") {
        VisitBinds(ScanFiles(prefix), f, Slots);
      }
    }
  }

  /** Once `execution_allowed` is false no later name sets it back. */
  lemma {:induction false} ScanFlagMonotone(names: seq<String>, n: nat)
    requires n <= |names|
    requires !ScanFiles(names[..n]).allowed
    ensures !ScanFiles(names).allowed
    decreases |names| - n
  {
    if n < |names| {
      var prefix := names[..|names| - 1];
      assert prefix[..n] == names[..n];
      ScanFlagMonotone(prefix, n);
      if EndsWith(names[|names| - 1], ".tif") {
        VisitBinds(ScanFiles(prefix), names[|names| - 1], Slots);
      }
    } else {
      assert names[..n] == names;
    }
  }

  /** What the scan state st says about the listing: the flag survives exactly
      when no token is matched twice, and then every slot holds the first matching
      `.tif` name, and only slots that some name matches are bound. */
  ghost predicate Characterises(names: seq<String>, st: Scan)
  {
    && (st.allowed <==> DuplicateFree(names))
    && (st.allowed ==> forall k ::
          && (k in st.bound <==> AnyHit(names, k))
          && (k in st.bound ==> exists i :: FirstHit(names, k, i) && st.bound[k] == names[i]))
  }

  /** A duplicate in a prefix of the listing is a duplicate of the listing. */
  lemma DuplicateInPrefix(names: seq<String>, f: String)
    requires !DuplicateFree(names)
    ensures !DuplicateFree(names + [f])
  {
    var i, j, k :| 0 <= i < j < |names| && Hit(names[i], k) && Hit(names[j], k);
    assert (names + [f])[i] == names[i] && (names + [f])[j] == names[j];
  }

  /** A name that is not a `.tif` leaves the scan state as it was, and it
      still describes the longer listing. */
  lemma StepNonTif(names: seq<String>, f: String, st: Scan)
    requires !EndsWith(f, ".tif")
    requires Characterises(names, st)
    ensures Characterises(names + [f], st)
  {
    var ns := names + [f];
    var n := |names|;
    assert forall i :: 0 <= i < n ==> ns[i] == names[i];
    assert forall k :: !Hit(f, k);
    forall k ensures AnyHit(ns, k) <==> AnyHit(names, k) {
      if AnyHit(ns, k) {
        var i :| 0 <= i < |ns| && Hit(ns[i], k);
        assert i < n;
      }
      if AnyHit(names, k) {
        var i :| 0 <= i < n && Hit(names[i], k);
        assert Hit(ns[i], k);
      }
    }
    if DuplicateFree(names) {
      forall i, j, k | 0 <= i < j < |ns|
        ensures !(Hit(ns[i], k) && Hit(ns[j], k))
      {
        if j < n {
          assert ns[i] == names[i] && ns[j] == names[j];
        }
      }
    } else {
      DuplicateInPrefix(names, f);
    }
    if st.allowed {
      forall k | k in st.bound
        ensures exists i :: FirstHit(ns, k, i) && st.bound[k] == ns[i]
      {
        var i :| FirstHit(names, k, i) && st.bound[k] == names[i];
        assert FirstHit(ns, k, i);
      }
    }
  }

  /** With no duplicate so far, a new `.tif` name keeps the flag exactly when
      it duplicates no earlier candidate, and binds the slots it is first to match. */
  lemma StepTif(names: seq<String>, f: String, st: Scan)
    requires EndsWith(f, ".tif")
    requires st.allowed
    requires Characterises(names, st)
    ensures Characterises(names + [f], Visit(st, f, Slots))
  {
    StepTifFlag(names, f, st);
    var r := Visit(st, f, Slots);
    if r.allowed {
      forall k
        ensures k in r.bound <==> AnyHit(names + [f], k)
        ensures k in r.bound ==> exists i :: FirstHit(names + [f], k, i) && r.bound[k] == (names + [f])[i]
      {
        StepTifSlot(names, f, st, k);
      }
    }
  }

  /** The flag part of `StepTif`: it survives exactly when the longer listing
      has no duplicate. */
  lemma StepTifFlag(names: seq<String>, f: String, st: Scan)
    requires EndsWith(f, ".tif")
    requires st.allowed
    requires Characterises(names, st)
    ensures Visit(st, f, Slots).allowed <==> DuplicateFree(names + [f])
  {
    SlotsDistinct();
    VisitSpec(st, f, Slots);
    if Visit(st, f, Slots).allowed {
      StepTifKeeps(names, f, st);
    } else {
      var k :| k in Slots && Contains(f, Token(k)) && k in st.bound;
      StepTifDrops(names, f, st, k);
    }
  }

  /** A new `.tif` name none of whose tokens is bound adds no duplicate. */
  lemma StepTifKeeps(names: seq<String>, f: String, st: Scan)
    requires EndsWith(f, ".tif")
    requires st.allowed
    requires Characterises(names, st)
    requires forall k :: k in Slots && Contains(f, Token(k)) ==> k !in st.bound
    ensures DuplicateFree(names + [f])
  {
    var ns := names + [f];
    var n := |names|;
    assert forall i :: 0 <= i < n ==> ns[i] == names[i];
    assert ns[n] == f;
    forall i, j, k | 0 <= i < j < |ns|
      ensures !(Hit(ns[i], k) && Hit(ns[j], k))
    {
      SlotsComplete(k);
      if j < n {
        assert ns[i] == names[i] && ns[j] == names[j];
      } else if Hit(names[i], k) {
        assert AnyHit(names, k);
      }
    }
  }

  /** A new `.tif` name holding a token already bound makes a duplicate. */
  lemma StepTifDrops(names: seq<String>, f: String, st: Scan, k: Slot)
    requires EndsWith(f, ".tif")
    requires st.allowed
    requires Characterises(names, st)
    requires Contains(f, Token(k)) && k in st.bound
    ensures !DuplicateFree(names + [f])
  {
    var ns := names + [f];
    var n := |names|;
    assert AnyHit(names, k);
    var i :| 0 <= i < n && Hit(names[i], k);
    assert ns[i] == names[i] && ns[n] == f;
    assert Hit(ns[i], k) && Hit(ns[n], k);
  }

  /** The binding part of `StepTif`, for one slot. */
  lemma StepTifSlot(names: seq<String>, f: String, st: Scan, k: Slot)
    requires EndsWith(f, ".tif")
    requires st.allowed
    requires Characterises(names, st)
    requires Visit(st, f, Slots).allowed
    ensures k in Visit(st, f, Slots).bound <==> AnyHit(names + [f], k)
    ensures k in Visit(st, f, Slots).bound ==>
              exists i :: FirstHit(names + [f], k, i) && Visit(st, f, Slots).bound[k] == (names + [f])[i]
  {
    SlotsDistinct();
    SlotsComplete(k);
    VisitSpec(st, f, Slots);
    VisitBinds(st, f, Slots);
    if k in st.bound {
      var i :| FirstHit(names, k, i) && st.bound[k] == names[i];
      EarlierHitStays(names, f, k, i);
    } else if Hit(f, k) {
      NewHitIsFirst(names, f, k);
    } else {
      NoHitAnywhere(names, f, k);
    }
  }

  /** The first candidate of a listing stays the first when a name is appended. */
  lemma EarlierHitStays(names: seq<String>, f: String, k: Slot, i: int)
    requires FirstHit(names, k, i)
    ensures FirstHit(names + [f], k, i) && (names + [f])[i] == names[i]
  {
    var ns := names + [f];
    assert forall j :: 0 <= j <= i ==> ns[j] == names[j];
  }

  /** An appended candidate for a slot nothing matched so far is its first one. */
  lemma NewHitIsFirst(names: seq<String>, f: String, k: Slot)
    requires !AnyHit(names, k) && Hit(f, k)
    ensures FirstHit(names + [f], k, |names|) && (names + [f])[|names|] == f
    ensures AnyHit(names + [f], k)
  {
    var ns := names + [f];
    forall j | 0 <= j < |names| ensures !Hit(ns[j], k) {
      assert ns[j] == names[j];
    }
    assert Hit(ns[|names|], k);
  }

  /** A slot that neither the listing nor the appended name matches stays unmatched. */
  lemma NoHitAnywhere(names: seq<String>, f: String, k: Slot)
    requires !AnyHit(names, k) && !Hit(f, k)
    ensures !AnyHit(names + [f], k)
  {
    var ns := names + [f];
    forall i | 0 <= i < |ns| ensures !Hit(ns[i], k) {
      if i < |names| {
        assert ns[i] == names[i];
      }
    }
  }

  /** The whole scan, stated over the listing (see Characterises). */
  lemma {:induction false} ScanSpec(names: seq<String>)
    ensures Characterises(names, ScanFiles(names))
    decreases |names|
  {
    if names != [] {
      var prefix := names[..|names| - 1];
      var f := names[|names| - 1];
      assert names == prefix + [f];
      var st := ScanFiles(prefix);
      ScanSpec(prefix);
      if !EndsWith(f, ".tif") {
        StepNonTif(prefix, f, st);
      } else if st.allowed {
        StepTif(prefix, f, st);
      } else {
        VisitBinds(st, f, Slots);
        DuplicateInPrefix(prefix, f);
      }
    } else {
      assert DuplicateFree(names);
      assert forall k :: !AnyHit(names, k);
    }
  }

  // ---------------------------------------------------------------------
  // The go / no-go decision

  /** The names bound to the five slots once the run may go on. */
  datatype Inputs = Inputs(fva0: String, fva1: String, fva2: String, fva3: String, pct02: Option<String>)

  /** Why the run stops before any comparison: a token matched twice, or a tier raster not found. */
  datatype ResolveError = DuplicateToken | MissingRaster

  /** The go / no-go decision of lines 649-665. */
  function Resolve(names: seq<String>): Result<Inputs, ResolveError>
  {
    var st := ScanFiles(names);
    if !st.allowed then Failure(DuplicateToken)
    else if !(Fva00 in st.bound && Fva01 in st.bound && Fva02 in st.bound && Fva03 in st.bound) then
      Failure(MissingRaster)
    else
      Success(Inputs(st.bound[Fva00], st.bound[Fva01], st.bound[Fva02], st.bound[Fva03],
                     if Pct02 in st.bound then Some(st.bound[Pct02]) else None))
  }

  /** The slot's value in resolved inputs. */
  function Bound(inp: Inputs, k: Slot): Option<String>
  {
    match k
    case Fva00 => Some(inp.fva0)
    case Fva01 => Some(inp.fva1)
    case Fva02 => Some(inp.fva2)
    case Fva03 => Some(inp.fva3)
    case Pct02 => inp.pct02
  }

  /** The run goes on exactly when no token is matched twice and each of the
      four tiers is matched by some `.tif` name. */
  lemma ResolveGoNoGo(names: seq<String>)
    ensures Resolve(names).Success? <==>
              DuplicateFree(names) && forall k :: Required(k) ==> AnyHit(names, k)
    ensures !DuplicateFree(names) ==> Resolve(names) == Failure(DuplicateToken)
  {
    ScanSpec(names);
    var st := ScanFiles(names);
    if st.allowed {
      assert Fva00 in st.bound <==> AnyHit(names, Fva00);
      assert Fva01 in st.bound <==> AnyHit(names, Fva01);
      assert Fva02 in st.bound <==> AnyHit(names, Fva02);
      assert Fva03 in st.bound <==> AnyHit(names, Fva03);
      forall k | Required(k) && !AnyHit(names, k)
        ensures Resolve(names).Failure?
      {
      }
    }
  }

  /** When the run goes on, each slot holds the first matching `.tif` name of
      the listing, and the 0.2 percent slot is empty exactly when nothing matches it. */
  lemma ResolveBindings(names: seq<String>, k: Slot)
    requires Resolve(names).Success?
    ensures Bound(Resolve(names).value, k).Some? <==> AnyHit(names, k)
    ensures Bound(Resolve(names).value, k).Some? ==>
              exists i :: FirstHit(names, k, i) && Bound(Resolve(names).value, k).value == names[i]
  {
    var st := ScanFiles(names);
    assert st.allowed;
    BoundIsScanned(names, k);
    ScanSpec(names);
    assert Characterises(names, st);
  }

  /** Once the run goes on, a slot of the inputs holds what the scan bound to it. */
  lemma BoundIsScanned(names: seq<String>, k: Slot)
    requires Resolve(names).Success?
    ensures Bound(Resolve(names).value, k) == if k in ScanFiles(names).bound then Some(ScanFiles(names).bound[k]) else None
  {
    var st := ScanFiles(names);
    assert Resolve(names).value == Inputs(st.bound[Fva00], st.bound[Fva01], st.bound[Fva02], st.bound[Fva03],
                                          if Pct02 in st.bound then Some(st.bound[Pct02]) else None);
  }

  /** A name that does not end in `.tif` is never bound, whatever tokens it holds. */
  lemma NonTifNeverBound(names: seq<String>, k: Slot)
    requires Resolve(names).Success? && Bound(Resolve(names).value, k).Some?
    ensures EndsWith(Bound(Resolve(names).value, k).value, ".tif")
    ensures Contains(Bound(Resolve(names).value, k).value, Token(k))
    ensures Bound(Resolve(names).value, k).value in names
  {
    ScanBindsHits(names);
  }
}

=== FILE: status.dfy ===
/** The status strings written into the report: `"Pass"` when the evidence
    layer of a check is empty, otherwise a message pointing at it. */
module Status {
  import opened Wrappers
  import opened Text

  const Pass: String := "Pass"

  const FailHead: String := "Fail! See "
  const FailTail: String := " in Output folder for details. "

  /** The failure status of a check whose evidence is the layer at `path`. */
  function FailStatus(path: String): String
  {
    FailHead + path + FailTail
  }

  /** Reads back the evidence path a failure status points at; `None` for
      anything that is not a failure status. */
  function EvidenceOf(status: String): (r: Option<String>)
    ensures r.Some? ==> status == FailStatus(r.value)
  {
    if |FailHead| + |FailTail| <= |status| && StartsWith(status, FailHead) && EndsWith(status, FailTail) then
      var path := status[|FailHead|..|status| - |FailTail|];
      assert status == status[..|FailHead|] + path + status[|status| - |FailTail|..];
      Some(path)
    else None
  }

  /** Every failure status names its evidence path, whatever the path. */
  lemma EvidenceRoundTrip(path: String)
    ensures EvidenceOf(FailStatus(path)) == Some(path)
  {
    var s := FailStatus(path);
    assert s[..|FailHead|] == FailHead;
    assert s[|s| - |FailTail|..] == FailTail;
    assert s[|FailHead|..|s| - |FailTail|] == path;
  }

  /** The status of a check from the number of features in its evidence
      layer: the extent checks of both versions and the cell checks of
      version 1.3. */
  function StatusOf(count: nat, evidence: String): (s: String)
    ensures s == Pass <==> count == 0
    ensures EvidenceOf(s) == (if count == 0 then None else Some(evidence))
  {
    if count > 0 then
      EvidenceRoundTrip(evidence);
      FailStatus(evidence)
    else
      assert EvidenceOf(Pass) == None;
      Pass
  }

  // ---------------------------------------------------------------------
  // Version 1.5's `reportCellComp`

  const WarnHead: String := "Warning! See cellDiff"
  const WarnTail: String := " _pts.shp in Output folder for details. "
  const AuxWarning: String := WarnHead + "_02_pts.shp in Output folder for details."

  /** The higher and lower tier digits re-read from fixed positions near the
      end of a point-file path: present when the tenth character from the
      end is `_`. */
  function TierDigitsOf(path: String): Option<(String, String)>
  {
    if Slice(path, -10, -9) == "_" then Some((Slice(path, -11, -10), Slice(path, -9, -8)))
    else None
  }

  /** The warning of a tier pair, carrying the digits in the order they were read. */
  function PairWarning(higher: String, lower: String): String
  {
    WarnHead + (higher + "_" + lower + WarnTail)
  }

  /** Version 1.5's cell-value status: `"Pass"` for an empty point layer,
      otherwise a warning that names the tier pair read off the path, or the
      0.2 percent warning when the path carries no pair. Never a failure status. */
  function ReportCellComp15(path: String, count: nat): (s: String)
    ensures s == Pass <==> count == 0
    ensures count > 0 ==> StartsWith(s, "Warning! See cellDiff")
    ensures EvidenceOf(s) == None
  {
    if count == 0 then
      assert EvidenceOf(Pass) == None;
      Pass
    else
      var digits := TierDigitsOf(path);
      var rest := if digits.Some? then digits.value.0 + "_" + digits.value.1 + WarnTail
                  else "_02_pts.shp in Output folder for details.";
      var s := WarnHead + rest;
      assert s[..|WarnHead|] == WarnHead;
      assert s[0] == 'W' && FailHead[0] == 'F';
      s
  }

  /** Version 1.3's cell-value status: the failure status of the point layer. */
  function ReportCellComp13(path: String, count: nat): (s: String)
    ensures s == Pass <==> count == 0
    ensures EvidenceOf(s) == (if count == 0 then None else Some(path))
  {
    StatusOf(count, path)
  }
}

=== FILE: text.dfy ===
/** The string operations the tools rely on, with Python's meaning:
    slices with negative positions, the `in` substring test, `str(n)` of a
    non-negative integer and `re.split('_|\.', s)`. */
module Text {

  type String = seq<char>

  // ---------------------------------------------------------------------
  // Slicing

  /** How Python reads one bound of `s[start:stop]` on a string of length n:
      a negative position counts from the end, and the result is clamped to [0, n]. */
  function SliceBound(n: nat, i: int): (k: nat)
    ensures k <= n
  {
    var j := if i < 0 then n + i else i;
    if j < 0 then 0 else if j > n then n else j
  }

  /** Python's `s[start:stop]`. */
  function Slice(s: String, start: int, stop: int): (r: String)
    ensures |r| <= |s|
  {
    var a := SliceBound(|s|, start);
    var b := SliceBound(|s|, stop);
    if a < b then s[a..b] else []
  }

  /** Python's `s[start:]`. */
  function SliceFrom(s: String, start: int): (r: String)
    ensures |r| <= |s|
  {
    s[SliceBound(|s|, start)..]
  }

  /** A slice whose two bounds are both negative reads only the string's tail:
      whatever precedes the last |t| characters has no effect on it. */
  lemma SliceOfTail(p: String, t: String, i: nat, j: nat)
    requires i <= j < |t|
    ensures Slice(p + t, i - |t|, j - |t|) == t[i..j]
  {
    var s := p + t;
    assert SliceBound(|s|, i - |t|) == |p| + i;
    assert SliceBound(|s|, j - |t|) == |p| + j;
    if i < j {
      assert s[|p| + i..|p| + j] == t[i..j];
    }
  }

  /** `s[-k:]` keeps the last k characters of a string that has at least k,
      and the whole string otherwise. */
  lemma SliceFromEnd(s: String, k: nat)
    requires 0 < k
    ensures |s| >= k ==> SliceFrom(s, -(k as int)) == s[|s| - k..]
    ensures |s| < k ==> SliceFrom(s, -(k as int)) == s
  {
  }

  // ---------------------------------------------------------------------
  // Substrings

  /** `t in s` for two Python strings. */
  predicate Contains(s: String, t: String)
    decreases |s|
  {
    t <= s || (|s| > 0 && Contains(s[1..], t))
  }

  /** t occurs in s starting at position i. */
  predicate OccursAt(s: String, t: String, i: int)
  {
    0 <= i && i + |t| <= |s| && s[i..i + |t|] == t
  }

  /** The recursive test agrees with the textbook definition: t occurs at some position of s. */
  lemma {:induction false} ContainsIff(s: String, t: String)
    ensures Contains(s, t) <==> exists i :: OccursAt(s, t, i)
    decreases |s|
  {
    if t <= s {
      assert OccursAt(s, t, 0);
    } else if |s| == 0 {
      assert forall i :: !OccursAt(s, t, i);
    } else {
      ContainsIff(s[1..], t);
      if Contains(s[1..], t) {
        var i :| OccursAt(s[1..], t, i);
        assert s[1..][i..i + |t|] == s[i + 1..i + 1 + |t|];
        assert OccursAt(s, t, i + 1);
      } else {
        forall i | 0 < i
          ensures OccursAt(s, t, i) == OccursAt(s[1..], t, i - 1)
        {
          if i + |t| <= |s| {
            assert s[i..i + |t|] == s[1..][i - 1..i - 1 + |t|];
          }
        }
      }
    }
  }

  /** A string contains every string it was built around. */
  lemma ContainsMiddle(p: String, t: String, q: String)
    ensures Contains(p + t + q, t)
  {
    ContainsIff(p + t + q, t);
    assert (p + t + q)[|p|..|p| + |t|] == t;
    assert OccursAt(p + t + q, t, |p|);
  }

  /** Python's `s.endswith(suffix)`. */
  predicate EndsWith(s: String, suffix: String)
  {
    |suffix| <= |s| && s[|s| - |suffix|..] == suffix
  }

  /** Python's `s.startswith(prefix)`. */
  predicate StartsWith(s: String, prefix: String)
  {
    prefix <= s
  }

  // ---------------------------------------------------------------------
  // Decimal numerals

  predicate IsDigit(c: char)
  {
    '0' <= c <= '9'
  }

  function DigitChar(d: nat): (c: char)
    requires d < 10
    ensures IsDigit(c)
  {
    "0123456789"[d]
  }

  function DigitValue(c: char): (d: nat)
    requires IsDigit(c)
    ensures d < 10
  {
    (c as int) - ('0' as int)
  }

  lemma DigitRoundTrip(d: nat)
    requires d < 10
    ensures DigitValue(DigitChar(d)) == d
  {
  }

  /** Python's `str(n)` for a non-negative integer. */
  function NatToString(n: nat): (r: String)
    ensures |r| >= 1
    ensures forall i :: 0 <= i < |r| ==> IsDigit(r[i])
    decreases n
  {
    if n < 10 then [DigitChar(n)] else NatToString(n / 10) + [DigitChar(n % 10)]
  }

  /** The value of a string of decimal digits, most significant first. */
  function DigitsValue(s: String): nat
    requires forall i :: 0 <= i < |s| ==> IsDigit(s[i])
    decreases |s|
  {
    if s == [] then 0 else DigitsValue(s[..|s| - 1]) * 10 + DigitValue(s[|s| - 1])
  }

  /** Reading back the numeral of n gives n. */
  lemma {:induction false} DecimalRoundTrip(n: nat)
    ensures DigitsValue(NatToString(n)) == n
    decreases n
  {
    var s := NatToString(n);
    if n < 10 {
      DigitRoundTrip(n);
      assert s[..|s| - 1] == [];
    } else {
      DecimalRoundTrip(n / 10);
      DigitRoundTrip(n % 10);
      assert s[..|s| - 1] == NatToString(n / 10);
    }
  }

  /** Distinct numbers have distinct numerals. */
  lemma NatToStringInjective(a: nat, b: nat)
    requires NatToString(a) == NatToString(b)
    ensures a == b
  {
    DecimalRoundTrip(a);
    DecimalRoundTrip(b);
  }

  // ---------------------------------------------------------------------
  // Splitting on '_' and '.'

  /** The two separators of `re.split('_|\.', s)`. */
  predicate IsDelimiter(c: char)
  {
    c == '_' || c == '.'
  }

  predicate NoDelimiter(s: String)
  {
    forall i :: 0 <= i < |s| ==> !IsDelimiter(s[i])
  }

  /** The separators of s, in order. */
  function Delimiters(s: String): (d: seq<char>)
    ensures forall i :: 0 <= i < |d| ==> IsDelimiter(d[i])
    ensures |d| <= |s|
    decreases |s|
  {
    if s == [] then []
    else (if IsDelimiter(s[0]) then [s[0]] else []) + Delimiters(s[1..])
  }

  /** `re.split('_|\.', s)`: the pieces between consecutive separators,
      empty pieces included. There is always one more piece than separators. */
  function Split(s: String): (parts: seq<String>)
    ensures |parts| == |Delimiters(s)| + 1
    ensures forall i :: 0 <= i < |parts| ==> NoDelimiter(parts[i])
    decreases |s|
  {
    if s == [] then [[]]
    else
      var rest := Split(s[1..]);
      if IsDelimiter(s[0]) then [[]] + rest
      else [[s[0]] + rest[0]] + rest[1..]
  }

  /** The inverse of Split: the pieces with the given separators put back between them. */
  function JoinWith(parts: seq<String>, seps: seq<char>): String
    requires |parts| == |seps| + 1
    decreases |seps|
  {
    if |seps| == 0 then parts[0]
    else parts[0] + [seps[0]] + JoinWith(parts[1..], seps[1..])
  }

  /** Splitting loses nothing: the pieces and the separators rebuild the string. */
  lemma {:induction false} SplitThenJoin(s: String)
    ensures JoinWith(Split(s), Delimiters(s)) == s
    decreases |s|
  {
    if s != [] {
      SplitThenJoin(s[1..]);
      var rest := Split(s[1..]);
      var ds := Delimiters(s[1..]);
      if IsDelimiter(s[0]) {
        assert Split(s) == [[]] + rest;
        assert Delimiters(s) == [s[0]] + ds;
        assert Split(s)[1..] == rest;
        assert [s[0]] + ds == Delimiters(s);
        assert JoinWith(Split(s), Delimiters(s)) == [] + [s[0]] + JoinWith(rest, ds);
        assert s == [s[0]] + s[1..];
      } else {
        var parts := Split(s);
        assert parts == [[s[0]] + rest[0]] + rest[1..];
        assert Delimiters(s) == ds;
        if |ds| == 0 {
          assert JoinWith(parts, ds) == [s[0]] + rest[0];
          assert JoinWith(rest, ds) == rest[0];
        } else {
          assert parts[1..] == rest[1..];
          assert JoinWith(parts, ds) == [s[0]] + rest[0] + [ds[0]] + JoinWith(rest[1..], ds[1..]);
          assert JoinWith(rest, ds) == rest[0] + [ds[0]] + JoinWith(rest[1..], ds[1..]);
        }
        assert s == [s[0]] + s[1..];
      }
    }
  }

  /** A leading run without separators joins the first piece of whatever follows it. */
  lemma {:induction false} SplitAfterPlainPrefix(p: String, s: String)
    requires NoDelimiter(p)
    ensures Split(p + s) == [p + Split(s)[0]] + Split(s)[1..]
    decreases |p|
  {
    if p != [] {
      var t := p + s;
      assert t[1..] == p[1..] + s;
      SplitAfterPlainPrefix(p[1..], s);
      assert !IsDelimiter(t[0]);
      var rest := Split(t[1..]);
      assert rest == [p[1..] + Split(s)[0]] + Split(s)[1..];
      assert Split(t) == [[t[0]] + rest[0]] + rest[1..];
      assert rest[1..] == Split(s)[1..];
      assert [t[0]] + (p[1..] + Split(s)[0]) == p + Split(s)[0];
    } else {
      assert p + s == s;
      assert p + Split(s)[0] == Split(s)[0];
      assert Split(s) == [Split(s)[0]] + Split(s)[1..];
    }
  }

  /** Joining separator-free pieces with separators and splitting again
      gives back the pieces. */
  lemma {:induction false} JoinThenSplit(parts: seq<String>, seps: seq<char>)
    requires |parts| == |seps| + 1
    requires forall i :: 0 <= i < |parts| ==> NoDelimiter(parts[i])
    requires forall i :: 0 <= i < |seps| ==> IsDelimiter(seps[i])
    ensures Split(JoinWith(parts, seps)) == parts
    decreases |seps|
  {
    if |seps| == 0 {
      SplitAfterPlainPrefix(parts[0], []);
      assert parts[0] + [] == parts[0];
      assert parts == [parts[0]];
    } else {
      var tail := JoinWith(parts[1..], seps[1..]);
      JoinThenSplit(parts[1..], seps[1..]);
      var t := [seps[0]] + tail;
      assert t[1..] == tail;
      assert Split(t) == [[]] + parts[1..];
      assert parts[0] + [seps[0]] + tail == parts[0] + t;
      SplitAfterPlainPrefix(parts[0], t);
      assert parts[0] + [] == parts[0];
      assert parts == [parts[0]] + parts[1..];
    }
  }
}

=== FILE: wrappers.dfy ===
/** Failure-carrying values used in place of the source's exceptions and `None`s. */
module Wrappers {

  datatype Option<+T> = None | Some(value: T) {
    function GetOr(default: T): T
    {
      match this
      case Some(v) => v
      case None => default
    }
  }

  datatype Result<+R, +E> = Success(value: R) | Failure(error: E)
}
